=== FILE: README.md ===
# Skeletal mesh loader, modelled in Dafny

This project models the core of the TGC skeletal-animation loader
(`TgcSkeletalLoader`). The loader turns parsed mesh and animation records
into a skinned mesh:

- it builds the bone hierarchy;
- it distributes, prunes and normalises the per-vertex bone weights;
- it resolves materials and textures;
- it writes a vertex buffer with one vertex per triangle corner and a flat
  index buffer;
- it chooses the vertex layout from the mesh's material id;
- it attaches keyframe animations to the mesh by name.

Each step is a pure function over immutable records. C# exceptions are
explicit error results:

- an out-of-range array index is `IndexOutOfRange`;
- dereferencing a null materials-array entry is `NullReference`;
- `Array.Copy` from a source that is too short is `ArgumentError`;
- `Dictionary.Add` with a key already present is `DuplicateKey`.

Unchecked C# integer arithmetic is written out:

- `index * 3` and `index * 2` wrap as 32-bit ints;
- `(short)j` wraps as a 16-bit short;
- the float-to-int casts of the weight triples truncate toward zero.

Floats are modelled as reals.

Modules, one per file:

- `Common` (common.dfy): vectors, `Option`, `Result` and C#-width arithmetic.
- `Records` (records.dfy): the parsed input records.
- `Skeleton` (skeleton.dfy): `loadSkeleton`.
- `BoneWeights` (bone_weights.dfy): influences and the largest-first sort.
- `VertexWeights` (vertex_weights.dfy): `loadVerticesWeights`.
- `Materials` (materials.dfy): `createTextureAndMaterial` and the material loop of `loadMesh`.
- `Buffers` (buffers.dfy): the vertex and index buffers both builders write.
- `MeshAssembly` (mesh.dfy): `crearMeshSoloColor`, `crearMeshDiffuseMap` and `loadMesh`.
- `Animations` (animations.dfy): `loadAnimation`, `loadAnimationFromString` and the animation loop of `loadMeshAndAnimationsFromFile`.

Behaviours of the code that a caller might not expect, each modelled as
written:

- Skeleton: the parent pass (lines 284-295) links `bones[parentId]` for any
  parent id other than -1 and checks nothing but the array bounds (line
  293). A parent declared after its child is linked, and so is a cycle
  (`Skeleton.ForwardParentAccepted`, `Skeleton.CycleAccepted`).
- Vertex weights: the normalisation loop (lines 350-361) divides every kept
  weight by the vertex's total without testing the total for zero. The model
  keeps the numerator of the non-finite quotient (`VertexWeights.Normalize`).
- Textures: `createTextureAndMaterial` clears the texture dictionary (line
  631) just before looking the file up in it. The comment at line 634 says
  the lookup is meant to reuse an image loaded earlier, but after the clear
  it never hits. Every standard record and every sub-material of a
  multi-material that names a file gets its own newly created texture, even
  when files repeat (`Materials.SameFileLoadedTwice`,
  `Materials.CachedFileCreatedAgain`). A multi-material record's own file
  name, and the file of a record of any other type, create nothing.
- Texture paths: the loop builds `mediaPath + texturesDir + "\\"` (line
  161) and `createTextureAndMaterial` appends `"\\" + fileName` to it (line
  642), so every texture path holds two separators in a row before the file
  name (`Materials.TexturePathDoubleSeparator`).
- Materials: `Material` is a Direct3D struct. Line 611 stores a copy of a
  new, all-zero material in the leaf before lines 612-626 set the colours
  on the local variable, so every mesh material ends up all zero
  (`Materials.ColoursLost`; see "## Findings").
- Animations: `loadAnimationFromString` registers with `Dictionary.Add`
  (line 145). Loading a second animation under a name already present
  fails (`Animations.DuplicateNameRejected`) rather than replacing the first.
- Corner counts: the Direct3D mesh is sized for `length / 3` faces (lines
  374 and 509), and the face count used for the attribute ids rounds down
  the same way (`MeshAssembly.FaceCount`). Nothing in the loader itself
  rejects a corner count that is not a multiple of three. Whether the index
  buffer write of all corners (line 464) then fails inside Direct3D is not
  modelled, so the model reports no error for such a mesh.

## Model


| member | source | states |
|---|---|---|
| Common.Int32 | TGC.Tools/Utils/TgcSkeletalAnimation/TgcSkeletalLoader.cs:389 | the C# int result of `coordinatesIndices[j] * 3` is in the 32-bit range, agrees with the exact product modulo 2^32, and is the exact value whenever that fits |
| Common.Int16 | TGC.Tools/Utils/TgcSkeletalAnimation/TgcSkeletalLoader.cs:462 | `(short)j` lies in the 16-bit signed range, agrees with `j` modulo 2^16, and is `j` itself when `j` fits |
| Common.Unsigned16 | TGC.Tools/Utils/TgcSkeletalAnimation/TgcSkeletalLoader.cs:459-464 | a stored short read back as a 16-bit index is below 2^16 and agrees with the short modulo 2^16 |
| Common.Truncate | TGC.Tools/Utils/TgcSkeletalAnimation/TgcSkeletalLoader.cs:321-322 | the float-to-int cast of a vertex or bone index rounds toward zero: floor for non-negative values, ceiling for negative ones |
| Skeleton.LinkParents | TGC.Tools/Utils/TgcSkeletalAnimation/TgcSkeletalLoader.cs:284-295 | the parent pass succeeds exactly when every parent id from the current bone onward is -1 or a valid bone index; failure is an index error; earlier bones are untouched; each later bone gets no parent for -1 and the named bone otherwise |
| Skeleton.LoadSkeleton | TGC.Tools/Utils/TgcSkeletalAnimation/TgcSkeletalLoader.cs:268-298 | succeeds exactly when every parent id is -1 or in range, otherwise fails with an index error; one bone per record, in record order, with id = position, name, bind position and rotation copied, and parent absent exactly for -1 and otherwise the bone the record names |
| Skeleton.OrderedRecordsGiveOrderedSkeleton | TGC.Tools/Utils/TgcSkeletalAnimation/TgcSkeletalLoader.cs:284-295 | records whose parents all precede them load, and every bone's parent then has a smaller id |
| Skeleton.ForwardParentAccepted | TGC.Tools/Utils/TgcSkeletalAnimation/TgcSkeletalLoader.cs:287-294 | a bone whose parent is declared after it is linked to that later bone without error |
| Skeleton.CycleAccepted | TGC.Tools/Utils/TgcSkeletalAnimation/TgcSkeletalLoader.cs:287-294 | two bones naming each other as parent both load, forming a cycle |
| Skeleton.OutOfRangeParentRejected | TGC.Tools/Utils/TgcSkeletalAnimation/TgcSkeletalLoader.cs:293 | a parent id past the last bone makes the skeleton fail with an index error |
| BoneWeights.InsertKeepsDescending | TGC.Tools/Utils/TgcSkeletalAnimation/TgcSkeletalLoader.cs:339-341 | inserting one influence into a largest-first list keeps it largest-first, adds exactly that influence, and puts either it or the old head first |
| BoneWeights.SortDescendingSorts | TGC.Tools/Utils/TgcSkeletalAnimation/TgcSkeletalLoader.cs:339-341 | the sort yields a largest-first permutation of the influences (same length, same multiset) |
| VertexWeights.TriplesFlattenRoundTrip | TGC.Tools/Utils/TgcSkeletalAnimation/TgcSkeletalLoader.cs:318-323 | reading back a float array laid out as (vertex, bone, weight) triples, followed by fewer than three stray floats, gives exactly those triples: whole-number vertex and bone fields survive the `(int)` casts and the incomplete tail is ignored |
| VertexWeights.FlattenTriplesRoundTrip | TGC.Tools/Utils/TgcSkeletalAnimation/TgcSkeletalLoader.cs:318-323 | conversely, a float array of whole triples whose vertex and bone fields are whole numbers is exactly the layout of the triples read from it |
| VertexWeights.Distribute | TGC.Tools/Utils/TgcSkeletalAnimation/TgcSkeletalLoader.cs:311-329 | distribution succeeds exactly when every triple names an existing vertex and bone, otherwise fails with an index error; there is one list per vertex, and each list is exactly the influences of the triples naming that vertex, in triple order |
| VertexWeights.NoTriplesNoInfluences | TGC.Tools/Utils/TgcSkeletalAnimation/TgcSkeletalLoader.cs:311-329 | a vertex's influence list is empty exactly when no triple names that vertex |
| VertexWeights.InfluencesComeFromTriples | TGC.Tools/Utils/TgcSkeletalAnimation/TgcSkeletalLoader.cs:319-328 | every influence on a vertex is the bone and weight of some triple naming it |
| VertexWeights.DistributionConservesTriples | TGC.Tools/Utils/TgcSkeletalAnimation/TgcSkeletalLoader.cs:319-328 | the lists together hold exactly one influence per triple: none is lost or duplicated |
| VertexWeights.Prune | TGC.Tools/Utils/TgcSkeletalAnimation/TgcSkeletalLoader.cs:337-348 | at most four influences are kept, and a list of four or fewer is untouched; a longer one keeps four, largest first, drawn from the input, and every kept weight is at least every dropped one |
| VertexWeights.PruneKeepsHeadOfOrderedList | TGC.Tools/Utils/TgcSkeletalAnimation/TgcSkeletalLoader.cs:337-346 | more than four influences already in strictly decreasing weight are cut to their first four: the sort leaves them in place and only the tail is removed |
| VertexWeights.Normalize | TGC.Tools/Utils/TgcSkeletalAnimation/TgcSkeletalLoader.cs:350-361 | each influence keeps its bone. With a nonzero total, the new weight times the total is the old weight. With a zero total, every quotient is non-finite and carries its numerator |
| VertexWeights.NormalizedWeightsSumToOne | TGC.Tools/Utils/TgcSkeletalAnimation/TgcSkeletalLoader.cs:350-361 | with a nonzero total, the normalised weights sum to exactly one |
| VertexWeights.NormalizedWeightsInUnitRange | TGC.Tools/Utils/TgcSkeletalAnimation/TgcSkeletalLoader.cs:350-361 | non-negative weights with a nonzero total normalise to finite values in [0, 1] |
| VertexWeights.LoadVerticesWeights | TGC.Tools/Utils/TgcSkeletalAnimation/TgcSkeletalLoader.cs:305-365 | succeeds exactly when every triple names an existing vertex and bone, otherwise fails with an index error; there is one list per vertex (coordinate count / 3), each with at most four influences, and each list is the normalised, pruned influences of that vertex |
| VertexWeights.VertexWeightsSumToOne | TGC.Tools/Utils/TgcSkeletalAnimation/TgcSkeletalLoader.cs:332-362 | with positive raw weights, every vertex that has an influence ends with finite weights in [0, 1] that sum to one |
| VertexWeights.FiveInfluencesExample | TGC.Tools/Utils/TgcSkeletalAnimation/TgcSkeletalLoader.cs:337-361 | five influences 0.1, 0.5, 0.2, 0.15, 0.05 become the four largest, largest first, each divided by 0.95 |
| Materials.CreateTextureAndMaterial | TGC.Tools/Utils/TgcSkeletalAnimation/TgcSkeletalLoader.cs:605-654 | the leaf keeps the all-zero material, because line 611 stores a copy of the struct before lines 612-626 set the colours on the local. The texture dictionary is emptied, so the lookup that follows misses. When the record names a file, a new texture is created with path `texturesPath + "\\" + file` and the dictionary holds only that texture; without a file there is no texture and the dictionary stays empty |
| Materials.CreateSubMaterials | TGC.Tools/Utils/TgcSkeletalAnimation/TgcSkeletalLoader.cs:174-178 | one leaf per sub-material record, in order, each with the zero material and, exactly when the record names a file, a texture of that file at `texturesPath + "\\" + file`; one new texture per sub-record naming a file, with consecutive serials |
| Materials.LoadMaterial | TGC.Tools/Utils/TgcSkeletalAnimation/TgcSkeletalLoader.cs:160-179 | a standard record becomes a leaf with the zero material and, exactly when it names a file, a texture of that file at `texturesPath + "\\" + file`; a multi-material record becomes an entry with the zero material, no texture, and one leaf per sub-record; any other type leaves the entry null. Texture serials stay consecutive |
| Materials.LoadMaterials | TGC.Tools/Utils/TgcSkeletalAnimation/TgcSkeletalLoader.cs:157-180 | the materials array has one entry per record, each resolved from its record: the zero material and, exactly where a record or sub-record names a file, a texture of that file under the textures path; it holds exactly one new texture one per standard record naming a file, plus one per sub-material of a multi-material record naming a file, with consecutive serials |
| Materials.CachedFileCreatedAgain | TGC.Tools/Utils/TgcSkeletalAnimation/TgcSkeletalLoader.cs:631-646 | after the clear at line 631 the lookup misses, so a file the dictionary already caches gets a newly created texture with the next serial, different from the cached one (the cached textures all predate the next serial, which every material creation keeps true) |
| Materials.TexturePathDoubleSeparator | TGC.Tools/Utils/TgcSkeletalAnimation/TgcSkeletalLoader.cs:642 | a texture loaded under the textures path line 161 builds from `mediaPath` and `texturesDir` has path `mediaPath + texturesDir`, then two separators, then the file name |
| Materials.ColoursLost | TGC.Tools/Utils/TgcSkeletalAnimation/TgcSkeletalLoader.cs:610-626 | a record with a nonzero ambient colour yields a leaf whose ambient colour is zero, unlike the leaf that copies the colours |
| Materials.CreateTextureAndMaterialIntended | TGC.Tools/Utils/TgcSkeletalAnimation/TgcSkeletalLoader.cs:610-626 | the leaf the colour assignments evidently aim at: the record's ambient, diffuse and specular colours, with the same texture and dictionary as the code |
| Materials.TexturesNeverShared | TGC.Tools/Utils/TgcSkeletalAnimation/TgcSkeletalLoader.cs:631-648 | no two entries of one load share a texture instance |
| Materials.SameFileLoadedTwice | TGC.Tools/Utils/TgcSkeletalAnimation/TgcSkeletalLoader.cs:631-648 | two standard materials naming the same file get two distinct textures of that file |
| Buffers.ReadVec3 | TGC.Tools/Utils/TgcSkeletalAnimation/TgcSkeletalLoader.cs:389-394 | reading three floats at a 32-bit offset succeeds exactly when all three wrapped indices are in range, otherwise fails with an index error |
| Buffers.ReadChannel | TGC.Tools/Utils/TgcSkeletalAnimation/TgcSkeletalLoader.cs:405-445 | an absent optional channel reads as the zero vector; a present one is read like the position |
| Buffers.BuildVertex | TGC.Tools/Utils/TgcSkeletalAnimation/TgcSkeletalLoader.cs:384-451 | a corner's vertex loads exactly when every array read for it is in range, otherwise with an index error. The variant matches the layout. The position, normal, tangent and binormal come from the coordinate index; the colour and the diffuse texture coordinate come from their own indices; the influences are those of the original vertex |
| Buffers.BuildVertices | TGC.Tools/Utils/TgcSkeletalAnimation/TgcSkeletalLoader.cs:384-452 | the first k corners load exactly when each of them does; entry j is corner j's vertex |
| Buffers.BuildVertexBuffer | TGC.Tools/Utils/TgcSkeletalAnimation/TgcSkeletalLoader.cs:380-454 | the vertex buffer has one entry per triangle corner, entry j being corner j's vertex, and loads exactly when every corner does |
| Buffers.IndexBuffer | TGC.Tools/Utils/TgcSkeletalAnimation/TgcSkeletalLoader.cs:457-465 | one short per corner; read as 16-bit indices, entry j is j modulo 2^16, and up to 32768 corners the buffer is the identity |
| Buffers.IndexBufferSelectsCorner | TGC.Tools/Utils/TgcSkeletalAnimation/TgcSkeletalLoader.cs:457-465 | up to 32768 corners, index-buffer entry j selects corner j's vertex from the vertex buffer |
| Buffers.CornerReadsVertexTriple | TGC.Tools/Utils/TgcSkeletalAnimation/TgcSkeletalLoader.cs:389-417 | when `3 * index + 2` fits in an int, the corner reads coordinates and normals at `3 * index .. 3 * index + 2`, gets the zero normal without normals, and gets the influences of vertex `index` |
| Buffers.SharedCornersDuplicateVertex | TGC.Tools/Utils/TgcSkeletalAnimation/TgcSkeletalLoader.cs:384-451 | corners sharing a coordinate index get equal position, normal, tangent, binormal and influences, each in its own buffer entry |
| MeshAssembly.BuildGeometry | TGC.Tools/Utils/TgcSkeletalAnimation/TgcSkeletalLoader.cs:376-465 | the shared part of both builders loads exactly when the skeleton, the weights and every corner do, otherwise with an index error; it yields the skeleton, the corner-expanded vertex buffer and the flat index buffer |
| MeshAssembly.CrearMeshSoloColor | TGC.Tools/Utils/TgcSkeletalAnimation/TgcSkeletalLoader.cs:506-600 | a vertex-colour mesh loads exactly when its geometry does; it has no materials, textures or attributes, and one vertex-colour vertex and one index per corner |
| MeshAssembly.SelectMaterials | TGC.Tools/Utils/TgcSkeletalAnimation/TgcSkeletalLoader.cs:468-493 | selection succeeds exactly when the entry at the material id exists, is non-null, and (for a multi-material) has at least one material id per triangle. A leaf gives its single material and texture; a multi-material gives its sub-materials' materials and textures in order, and the first triangle-count material ids as attributes |
| MeshAssembly.CrearMeshDiffuseMap | TGC.Tools/Utils/TgcSkeletalAnimation/TgcSkeletalLoader.cs:371-500 | a diffuse-map mesh loads exactly when its geometry and its material selection do; every vertex is a diffuse-map vertex; materials, textures and attributes are the selected ones |
| MeshAssembly.SelectFromResolved | TGC.Tools/Utils/TgcSkeletalAnimation/TgcSkeletalLoader.cs:468-493 | on the array the material loop resolves, selection succeeds exactly when the record at the material id exists, has a known type, and (if multi) has a material id per triangle. Every chosen material is the zero material, with a texture exactly where the record or sub-record names a file, of that file under the textures directory |
| MeshAssembly.LoadMesh | TGC.Tools/Utils/TgcSkeletalAnimation/TgcSkeletalLoader.cs:154-212 | a mesh loads exactly when its geometry loads in the layout material id -1 selects (vertex colour for -1, diffuse map otherwise) and, for a textured mesh, its material record is selectable. The bounding box is explicit exactly when both corners are given. The mesh is enabled, has no animations, and every material record's textures are created, used or not |
| MeshAssembly.LoadMeshMaterials | TGC.Tools/Utils/TgcSkeletalAnimation/TgcSkeletalLoader.cs:157-193 | a textured mesh's materials come from the record its material id names: one zero material for a standard record, one per sub-material for a multi-material, with a texture exactly where the record names a file, loaded from `mediaPath + texturesDir + "\\" + "\\" + file` (two separators), and the first triangle-count material ids as attributes for a multi-material |
| MeshAssembly.AttributeIdsUnchecked | TGC.Tools/Utils/TgcSkeletalAnimation/TgcSkeletalLoader.cs:481-483 | each of the first triangle-count material ids is stored in the attribute buffer unchanged, with no range check: an id at or past the sub-material count is kept and names no material of the mesh |
| MeshAssembly.MultiMaterialAttributesInRange | TGC.Tools/Utils/TgcSkeletalAnimation/TgcSkeletalLoader.cs:481-483 | with one in-range sub-material id per triangle, the attribute buffer is exactly those ids and each indexes the mesh's materials |
| Animations.FramesConcat | TGC.Tools/Utils/TgcSkeletalAnimation/TgcSkeletalLoader.cs:228-244 | frames are built one key frame at a time, in order: the frames of two consecutive key-frame runs are the frames of the first followed by those of the second |
| Animations.Tracks | TGC.Tools/Utils/TgcSkeletalAnimation/TgcSkeletalLoader.cs:220-245 | the track array has one slot per mesh bone and loads exactly when every bone record with frames names an existing bone, otherwise with an index error; each slot holds the frames the records give that bone, in record order, or nothing when there are none |
| Animations.LoadAnimation | TGC.Tools/Utils/TgcSkeletalAnimation/TgcSkeletalLoader.cs:217-263 | an animation loads exactly when its tracks do; name, frame rate and frame count are copied; there is one track slot per mesh bone; the box is explicit when both corners are given and the mesh's otherwise |
| Animations.FramelessRecordIgnored | TGC.Tools/Utils/TgcSkeletalAnimation/TgcSkeletalLoader.cs:228-244 | a bone record without frames is never looked up: appending one with any bone id leaves the animation unchanged |
| Animations.FramesForSplits | TGC.Tools/Utils/TgcSkeletalAnimation/TgcSkeletalLoader.cs:223-245 | the frames of a bone over two runs of records are the frames of the first run followed by those of the second |
| Animations.Register | TGC.Tools/Utils/TgcSkeletalAnimation/TgcSkeletalLoader.cs:145 | registration fails with a duplicate-key error exactly when the name is taken; otherwise it adds the animation under its name and changes nothing else |
| Animations.LoadAnimationFromString | TGC.Tools/Utils/TgcSkeletalAnimation/TgcSkeletalLoader.cs:140-146 | loading and registering succeeds exactly when the tracks resolve and the name is new; the mesh then gains exactly that animation and nothing else changes |
| Animations.LoadAnimationIgnoresRegistered | TGC.Tools/Utils/TgcSkeletalAnimation/TgcSkeletalLoader.cs:217-263 | an animation depends on the mesh only through its bones and bounding box, not through the animations already registered |
| Animations.LoadAll | TGC.Tools/Utils/TgcSkeletalAnimation/TgcSkeletalLoader.cs:82-85 | the animation loop succeeds exactly when every animation resolves and the names are pairwise distinct and new. The mesh then gains exactly those names, keeps its earlier animations, and maps each name to its animation |
| Animations.DuplicateNameRejected | TGC.Tools/Utils/TgcSkeletalAnimation/TgcSkeletalLoader.cs:145 | loading two animations with one name fails with a duplicate-key error instead of replacing the first |
| Animations.LoadMeshAndAnimations | TGC.Tools/Utils/TgcSkeletalAnimation/TgcSkeletalLoader.cs:79-87 | a mesh and its animations load exactly when the mesh loads, every animation resolves against its bones, and the names are distinct. The animation names are exactly the loaded ones, every animation has one track slot per bone, and the textures created are one per standard record naming a file, plus one per sub-material of a multi-material record naming a file |

## Left out

- File access and error wrapping are not modelled: `loadMeshFromFile`, `loadAnimationFromFile` and the two path-deriving overloads (lines 47-70, 96-100, 121-132). Their reads and exception wrapping are I/O. The model starts from the parsed records.
- The XML parser (`TgcSkeletalParser`) is not part of this model; records are its output.
- Direct3D objects are left out because they are foreign: `Mesh`, `VertexBuffer`, `IndexBuffer`, the attribute buffer lock, the vertex element declarations and the vertex structs (lines 661-765). The buffers are modelled as sequences of their contents.
- Texture creation (`TgcTexture.createTexture`) is a foreign resource load. It is modelled as a handle that always succeeds and carries a serial number. A missing or unreadable texture file is not modelled.
- `createVector4WeightsAndIndices` is not part of this model. Each vertex carries its normalised influence list instead of the packed four-slot weight and index vectors.
- `BoneWeight.GreaterComparer` is not part of this model. The sort direction, largest first after `Sort` and `Reverse`, is taken from the comment at line 339.
- VertexWeights.Prune: `List.Sort` is unstable, so the source leaves open which of several equal weights survive pruning. The model keeps equal weights in input order, which is one of the admissible outcomes.
- `TgcBoundingBox` construction and `createBoundingBox` are not part of this model. A box is recorded as explicit corners or as computed from the vertices.
- `IMeshFactory` and `DefaultMeshFactory` (lines 781-803) are left out: the factory's result is the assembled mesh record.
- Single-precision float rounding is not modelled; weights, colours and coordinates are reals. VertexWeights.NormalizedWeightsSumToOne: the normalised weights sum to exactly one over reals; in single precision the sum is only approximately one.
- A float-to-int cast of a value outside the int range (unspecified in C#) is modelled as exact truncation.
- Array fields the parser could leave null are modelled as present, since the code dereferences each without a null check: `bones` (line 271), `verticesCoordinates` (line 311), `verticesWeights` (line 318), `coordinatesIndices` (lines 384-389), `texCoordinatesIndices` and `textureCoordinates` (lines 397-399), `colorIndices` and `verticesColors` (lines 402-403 and 532-533), `materialsData` (line 157), `subMaterials` (line 174), `materialsIds` (line 482), `bonesFrames` (line 223) and `keyFrames` (line 228). Normals, tangents, binormals and the bounding-box corners are optional, as the code checks them. A material type string that is null is not modelled.
- Float arrays of the wrong length (a position with fewer than three floats, a quaternion with fewer than four) are not modelled; records carry vectors and quaternions.
- Other files of the repository, such as the keyframe-animation loader and the mesh creator tools, are outside this core.
- The Direct3D index-buffer write (line 464) of a mesh whose corner count is not a multiple of three is not modelled: the mesh is sized for `length / 3` faces (lines 374 and 509), and what Direct3D does with the extra indices is foreign. The model reports no error for such a mesh.

## Findings

| source | as written | input that shows it | evidently intended | confidence | as-written member | corrected member |
|---|---|---|---|---|---|---|
| TGC.Tools/Utils/TgcSkeletalAnimation/TgcSkeletalLoader.cs:610-626 | `matAux.materialId = material` copies the value-type `Material` before its colours are set, so the leaf keeps the all-zero material | a standard material record with ambient colour (1, 1, 1, 1): the mesh's material has ambient colour (0, 0, 0, 0) | the leaf carries the record's ambient, diffuse and specular colours (assign after setting them) | medium: rests on `Microsoft.DirectX.Direct3D.Material` being a struct; not executed | Materials.ColoursLost | Materials.CreateTextureAndMaterialIntended |

=== FILE: animations.dfy ===
/** Animation assembly: `loadAnimation`, the registration step of
    `loadAnimationFromString`, and the loop of `loadMeshAndAnimationsFromFile`.
    Every bone of the mesh gets a keyframe track slot; a slot stays empty
    unless some bone record with frames names it, and records naming the same
    bone append to one track in record order. */
module Animations {
  import opened Common
  import opened Records
  import opened MeshAssembly

  function FrameOf(f: FrameData): AnimationFrame {
    AnimationFrame(f.frame, f.position, f.rotation)
  }

  /** The animation frames built from a record's key frames, in order. */
  function Frames(keyFrames: seq<FrameData>): seq<AnimationFrame> {
    seq(|keyFrames|, j requires 0 <= j < |keyFrames| => FrameOf(keyFrames[j]))
  }

  /** Frames are built one key frame at a time: the frames of two key-frame
      runs are the frames of each, one after the other. */
  lemma FramesConcat(a: seq<FrameData>, b: seq<FrameData>)
    ensures Frames(a + b) == Frames(a) + Frames(b)
  {
  }

  /** A bone record is only looked up when it has frames; then its id must
      index the mesh's bones. */
  predicate RecordResolvable(record: BoneFramesData, boneCount: nat) {
    |record.keyFrames| == 0 || 0 <= record.id < boneCount
  }

  predicate TracksResolvable(records: seq<BoneFramesData>, boneCount: nat) {
    forall i :: 0 <= i < |records| ==> RecordResolvable(records[i], boneCount)
  }

  /** Reference definition: every frame the records give bone `b`, in record order. */
  function FramesFor(records: seq<BoneFramesData>, b: int): seq<AnimationFrame> {
    if records == [] then []
    else
      var last := records[|records| - 1];
      FramesFor(records[..|records| - 1], b) + (if last.id == b then Frames(last.keyFrames) else [])
  }

  lemma FramesForLast(records: seq<BoneFramesData>, k: nat, b: int)
    requires 0 < k <= |records|
    ensures var last := records[k - 1];
      FramesFor(records[..k], b) == FramesFor(records[..k - 1], b) + (if last.id == b then Frames(last.keyFrames) else [])
  {
    assert records[..k][..k - 1] == records[..k - 1];
  }

  /** The track slot of bone `b`: empty when no frames name it. */
  function TrackFor(records: seq<BoneFramesData>, b: int): Option<seq<AnimationFrame>> {
    var frames := FramesFor(records, b);
    if frames == [] then None else Some(frames)
  }

  /** The track array after the first `k` bone records. */
  function Tracks(records: seq<BoneFramesData>, boneCount: nat, k: nat): (r: Result<seq<Option<seq<AnimationFrame>>>>)
    requires k <= |records|
    ensures r.Ok? <==> TracksResolvable(records[..k], boneCount)
    ensures r.Err? ==> r.error == IndexOutOfRange
    ensures r.Ok? ==> |r.value| == boneCount
    ensures r.Ok? ==> forall b :: 0 <= b < boneCount ==> r.value[b] == TrackFor(records[..k], b)
  {
    if k == 0 then Ok(seq(boneCount, _ => None))
    else
      assert records[..k][..k - 1] == records[..k - 1];
      assert TracksResolvable(records[..k], boneCount) <==>
        TracksResolvable(records[..k - 1], boneCount) && RecordResolvable(records[k - 1], boneCount);
      var prefix :- Tracks(records, boneCount, k - 1);
      var record := records[k - 1];
      if |record.keyFrames| == 0 then
        assert forall b :: 0 <= b < boneCount ==> prefix[b] == TrackFor(records[..k], b) by {
          forall b | 0 <= b < boneCount
            ensures prefix[b] == TrackFor(records[..k], b)
          {
            FramesForLast(records, k, b);
            assert Frames(record.keyFrames) == [];
            assert FramesFor(records[..k], b) == FramesFor(records[..k - 1], b) + [];
            assert FramesFor(records[..k - 1], b) + [] == FramesFor(records[..k - 1], b);
          }
        }
        Ok(prefix)
      else if !(0 <= record.id < boneCount) then
        Err(IndexOutOfRange)
      else
        var existing := if prefix[record.id].Some? then prefix[record.id].value else [];
        assert existing == FramesFor(records[..k - 1], record.id);
        var tracks := prefix[record.id := Some(existing + Frames(record.keyFrames))];
        assert forall b :: 0 <= b < boneCount ==> tracks[b] == TrackFor(records[..k], b) by {
          forall b | 0 <= b < boneCount
            ensures tracks[b] == TrackFor(records[..k], b)
          {
            FramesForLast(records, k, b);
            if b == record.id {
              assert FramesFor(records[..k], b) == existing + Frames(record.keyFrames);
              assert |Frames(record.keyFrames)| > 0;
            } else {
              assert FramesFor(records[..k - 1], b) + [] == FramesFor(records[..k - 1], b);
            }
          }
        }
        Ok(tracks)
  }

  function AnimationBox(mesh: SkeletalMesh, data: AnimationData): BoundingBox {
    if data.pMin.Some? && data.pMax.Some? then ExplicitBox(data.pMin.value, data.pMax.value) else mesh.boundingBox
  }

  /** `loadAnimation`: one track slot per bone of the mesh, filled from the
      bone records; the record's box when both corners are given, otherwise
      the mesh's. */
  function LoadAnimation(mesh: SkeletalMesh, data: AnimationData): (r: Result<SkeletalAnimation>)
    ensures r.Ok? <==> TracksResolvable(data.bonesFrames, |mesh.assembled.bones|)
    ensures r.Err? ==> r.error == IndexOutOfRange
    ensures r.Ok? ==>
      && r.value.name == data.name
      && r.value.frameRate == data.frameRate
      && r.value.framesCount == data.framesCount
      && |r.value.boneFrames| == |mesh.assembled.bones|
      && (forall b :: 0 <= b < |mesh.assembled.bones| ==> r.value.boneFrames[b] == TrackFor(data.bonesFrames, b))
      && (data.pMin.Some? && data.pMax.Some? ==> r.value.boundingBox == ExplicitBox(data.pMin.value, data.pMax.value))
      && (data.pMin.None? || data.pMax.None? ==> r.value.boundingBox == mesh.boundingBox)
  {
    assert data.bonesFrames[..|data.bonesFrames|] == data.bonesFrames;
    var tracks :- Tracks(data.bonesFrames, |mesh.assembled.bones|, |data.bonesFrames|);
    Ok(SkeletalAnimation(data.name, data.frameRate, data.framesCount, tracks, AnimationBox(mesh, data)))
  }

  /** The dictionary insertion of `loadAnimationFromString`: a name already
      present is rejected, otherwise the animation is added and nothing else changes. */
  function Register(mesh: SkeletalMesh, animation: SkeletalAnimation): (r: Result<SkeletalMesh>)
    ensures r.Ok? <==> animation.name !in mesh.animations
    ensures r.Err? ==> r.error == DuplicateKey(animation.name)
    ensures r.Ok? ==>
      && r.value.animations.Keys == mesh.animations.Keys + {animation.name}
      && r.value.animations[animation.name] == animation
      && (forall name :: name in mesh.animations ==> r.value.animations[name] == mesh.animations[name])
      && r.value.assembled == mesh.assembled
      && r.value.boundingBox == mesh.boundingBox
      && r.value.enabled == mesh.enabled
  {
    if animation.name in mesh.animations then Err(DuplicateKey(animation.name))
    else Ok(mesh.(animations := mesh.animations[animation.name := animation]))
  }

  /** `loadAnimationFromString`, from the parsed animation record. */
  function LoadAnimationFromString(mesh: SkeletalMesh, data: AnimationData): (r: Result<SkeletalMesh>)
    ensures r.Ok? <==> TracksResolvable(data.bonesFrames, |mesh.assembled.bones|) && data.name !in mesh.animations
    ensures r.Ok? ==>
      && r.value.animations.Keys == mesh.animations.Keys + {data.name}
      && r.value.animations[data.name] == LoadAnimation(mesh, data).value
      && (forall name :: name in mesh.animations ==> r.value.animations[name] == mesh.animations[name])
      && r.value.assembled == mesh.assembled
      && r.value.boundingBox == mesh.boundingBox
      && r.value.enabled == mesh.enabled
  {
    var animation :- LoadAnimation(mesh, data);
    Register(mesh, animation)
  }

  function Names(anims: seq<AnimationData>): set<string> {
    if anims == [] then {} else {anims[0].name} + Names(anims[1..])
  }

  predicate DistinctNames(anims: seq<AnimationData>) {
    forall i, j :: 0 <= i < j < |anims| ==> anims[i].name != anims[j].name
  }

  /** Every animation resolves against the mesh, and no name repeats or is already taken. */
  predicate AnimationsLoad(mesh: SkeletalMesh, anims: seq<AnimationData>) {
    && (forall i :: 0 <= i < |anims| ==> TracksResolvable(anims[i].bonesFrames, |mesh.assembled.bones|))
    && DistinctNames(anims)
    && (forall i :: 0 <= i < |anims| ==> anims[i].name !in mesh.animations)
  }

  lemma {:induction false} NamesMembers(anims: seq<AnimationData>, name: string)
    ensures name in Names(anims) <==> exists i :: 0 <= i < |anims| && anims[i].name == name
  {
    if anims != [] {
      NamesMembers(anims[1..], name);
      if name in Names(anims[1..]) {
        var i :| 0 <= i < |anims[1..]| && anims[1..][i].name == name;
        assert anims[i + 1].name == name;
      }
      if exists i :: 0 <= i < |anims| && anims[i].name == name {
        var i :| 0 <= i < |anims| && anims[i].name == name;
        if i > 0 {
          assert anims[1..][i - 1].name == name;
        }
      }
    }
  }

  /** The animation loop: each animation in turn is loaded and registered. */
  function LoadAll(mesh: SkeletalMesh, anims: seq<AnimationData>): (r: Result<SkeletalMesh>)
    ensures r.Ok? <==> AnimationsLoad(mesh, anims)
    ensures r.Ok? ==>
      && r.value.assembled == mesh.assembled
      && r.value.boundingBox == mesh.boundingBox
      && r.value.enabled == mesh.enabled
      && r.value.animations.Keys == mesh.animations.Keys + Names(anims)
      && (forall name :: name in mesh.animations ==> r.value.animations[name] == mesh.animations[name])
      && (forall i :: 0 <= i < |anims| ==>
            anims[i].name in r.value.animations && r.value.animations[anims[i].name] == LoadAnimation(mesh, anims[i]).value)
    decreases |anims|
  {
    if anims == [] then Ok(mesh)
    else
      var first := LoadAnimationFromString(mesh, anims[0]);
      if first.Err? then
        assert !AnimationsLoad(mesh, anims) by {
          if !TracksResolvable(anims[0].bonesFrames, |mesh.assembled.bones|) {
          } else {
            assert anims[0].name in mesh.animations;
          }
        }
        Err(first.error)
      else
        var next := first.value;
        var rest := LoadAll(next, anims[1..]);
        LoadConditionsStep(mesh, anims, next);
        if rest.Ok? then
          LoadResultStep(mesh, anims, next, rest.value);
          rest
        else
          rest
  }

  /** Loading the animation of one record ignores the animations already registered. */
  lemma LoadAnimationIgnoresRegistered(m1: SkeletalMesh, m2: SkeletalMesh, data: AnimationData)
    requires m1.assembled == m2.assembled && m1.boundingBox == m2.boundingBox
    ensures LoadAnimation(m1, data) == LoadAnimation(m2, data)
  {
    assert AnimationBox(m1, data) == AnimationBox(m2, data);
  }

  /** Registering the head first leaves the tail loadable exactly when the whole list is. */
  lemma LoadConditionsStep(mesh: SkeletalMesh, anims: seq<AnimationData>, next: SkeletalMesh)
    requires anims != []
    requires LoadAnimationFromString(mesh, anims[0]) == Ok(next)
    ensures AnimationsLoad(next, anims[1..]) <==> AnimationsLoad(mesh, anims)
  {
    var tail := anims[1..];
    var bones := |mesh.assembled.bones|;
    assert next.animations.Keys == mesh.animations.Keys + {anims[0].name};
    if AnimationsLoad(mesh, anims) {
      forall i | 0 <= i < |tail|
        ensures tail[i].name !in next.animations
      {
        assert tail[i] == anims[i + 1];
      }
    }
    if AnimationsLoad(next, tail) {
      forall i | 0 <= i < |anims|
        ensures TracksResolvable(anims[i].bonesFrames, bones)
        ensures anims[i].name !in mesh.animations
      {
        if i > 0 { assert anims[i] == tail[i - 1]; }
      }
      forall i, j | 0 <= i < j < |anims|
        ensures anims[i].name != anims[j].name
      {
        assert anims[j] == tail[j - 1];
        if i > 0 { assert anims[i] == tail[i - 1]; }
      }
    }
  }

  /** The result of registering the head, then the tail, is the one stated for the whole list. */
  lemma LoadResultStep(mesh: SkeletalMesh, anims: seq<AnimationData>, next: SkeletalMesh, last: SkeletalMesh)
    requires anims != []
    requires LoadAnimationFromString(mesh, anims[0]) == Ok(next)
    requires AnimationsLoad(next, anims[1..])
    requires last.animations.Keys == next.animations.Keys + Names(anims[1..])
    requires forall name :: name in next.animations ==> last.animations[name] == next.animations[name]
    requires forall i :: 0 <= i < |anims[1..]| ==>
      anims[1..][i].name in last.animations && last.animations[anims[1..][i].name] == LoadAnimation(next, anims[1..][i]).value
    ensures last.animations.Keys == mesh.animations.Keys + Names(anims)
    ensures forall name :: name in mesh.animations ==> last.animations[name] == mesh.animations[name]
    ensures forall i :: 0 <= i < |anims| ==>
      anims[i].name in last.animations && last.animations[anims[i].name] == LoadAnimation(mesh, anims[i]).value
  {
    var tail := anims[1..];
    forall i | 0 <= i < |anims|
      ensures anims[i].name in last.animations && last.animations[anims[i].name] == LoadAnimation(mesh, anims[i]).value
    {
      if i == 0 {
        assert anims[0].name in next.animations;
      } else {
        assert anims[i] == tail[i - 1];
        LoadAnimationIgnoresRegistered(next, mesh, anims[i]);
      }
    }
  }

  /** `loadMeshAndAnimationsFromFile`, from the parsed records: the mesh, then
      every animation in order. */
  function LoadMeshAndAnimations(loader: Materials.TextureLoader, data: MeshData, mediaPath: string,
                                 anims: seq<AnimationData>): (r: Result<Loaded>)
    ensures r.Ok? <==> MeshLoads(data)
                       && (forall i :: 0 <= i < |anims| ==> TracksResolvable(anims[i].bonesFrames, |data.bones|))
                       && DistinctNames(anims)
    ensures r.Ok? ==>
      && r.value.mesh.animations.Keys == Names(anims)
      && r.value.loader.created == loader.created + Materials.FileCount(data.materialsData)
      && (forall name :: name in r.value.mesh.animations ==>
            |r.value.mesh.animations[name].boneFrames| == |r.value.mesh.assembled.bones|)
  {
    var loaded :- LoadMesh(loader, data, mediaPath);
    assert |loaded.mesh.assembled.bones| == |data.bones|;
    assert loaded.mesh.animations == map[];
    var mesh :- LoadAll(loaded.mesh, anims);
    assert forall name :: name in mesh.animations ==> exists i :: 0 <= i < |anims| && anims[i].name == name by {
      forall name | name in mesh.animations
        ensures exists i :: 0 <= i < |anims| && anims[i].name == name
      {
        NamesMembers(anims, name);
      }
    }
    Ok(Loaded(mesh, loaded.loader))
  }

  /** A bone with no frame in any record keeps an empty track, and a bone
      named by several records gets their frames concatenated in record order. */
  lemma {:induction false} FramesForSplits(a: seq<BoneFramesData>, c: seq<BoneFramesData>, b: int)
    ensures FramesFor(a + c, b) == FramesFor(a, b) + FramesFor(c, b)
    decreases |c|
  {
    if c == [] {
      assert a + c == a;
    } else {
      var init := c[..|c| - 1];
      assert (a + c)[..|a + c| - 1] == a + init;
      FramesForSplits(a, init, b);
    }
  }

  /** A bone record without frames is never looked up: whatever bone id it
      names, appending it leaves the animation unchanged. */
  lemma FramelessRecordIgnored(mesh: SkeletalMesh, data: AnimationData, record: BoneFramesData)
    requires |record.keyFrames| == 0
    ensures LoadAnimation(mesh, data.(bonesFrames := data.bonesFrames + [record])) == LoadAnimation(mesh, data)
  {
    var extended := data.(bonesFrames := data.bonesFrames + [record]);
    var n := |mesh.assembled.bones|;
    var k := |extended.bonesFrames|;
    assert extended.bonesFrames[..k] == extended.bonesFrames;
    assert extended.bonesFrames[..k - 1] == data.bonesFrames;
    assert TracksResolvable(extended.bonesFrames, n) <==> TracksResolvable(data.bonesFrames, n) by {
      assert forall i :: 0 <= i < |data.bonesFrames| ==> extended.bonesFrames[i] == data.bonesFrames[i];
    }
    var r1 := LoadAnimation(mesh, extended);
    var r2 := LoadAnimation(mesh, data);
    if r1.Ok? {
      forall b | 0 <= b < n
        ensures r1.value.boneFrames[b] == r2.value.boneFrames[b]
      {
        FramesForLast(extended.bonesFrames, k, b);
      }
      assert r1.value.boneFrames == r2.value.boneFrames;
      assert r1.value.boundingBox == r2.value.boundingBox;
    }
  }

  /** Two animations with one name cannot both be registered: the second
      insertion fails as a duplicate key instead of replacing the first. */
  lemma DuplicateNameRejected(mesh: SkeletalMesh, a: AnimationData, b: AnimationData)
    requires TracksResolvable(a.bonesFrames, |mesh.assembled.bones|)
    requires TracksResolvable(b.bonesFrames, |mesh.assembled.bones|)
    requires a.name !in mesh.animations && a.name == b.name
    ensures LoadAll(mesh, [a, b]) == Err(DuplicateKey(a.name))
  {
    var next := LoadAnimationFromString(mesh, a).value;
    assert [a, b][1..] == [b];
    assert LoadAll(mesh, [a, b]) == LoadAll(next, [b]);
    assert LoadAnimationFromString(next, b) == Err(DuplicateKey(b.name));
  }
}

=== FILE: bone_weights.dfy ===
/** A bone influence on a vertex and the largest-first ordering the loader
    sorts influences into before it drops the excess ones. */
module BoneWeights {

  /** One (bone, weight) influence on a vertex; `bone` indexes the skeleton. */
  datatype BoneWeight = BoneWeight(bone: int, weight: real)

  /** Largest weight first. */
  predicate Descending(s: seq<BoneWeight>) {
    forall i, j :: 0 <= i < j < |s| ==> s[i].weight >= s[j].weight
  }

  /** Inserts `x` ahead of the first element it is not lighter than. */
  function Insert(x: BoneWeight, s: seq<BoneWeight>): seq<BoneWeight> {
    if s == [] || x.weight >= s[0].weight then [x] + s
    else [s[0]] + Insert(x, s[1..])
  }

  /** Insertion sort, largest weight first. `List.Sort` is not stable, so the
      source leaves the order of equal weights open; this sort keeps equal
      weights in input order, which is one of the admissible outcomes. */
  function SortDescending(s: seq<BoneWeight>): seq<BoneWeight> {
    if s == [] then [] else Insert(s[0], SortDescending(s[1..]))
  }

  lemma {:induction false} InsertKeepsDescending(x: BoneWeight, s: seq<BoneWeight>)
    requires Descending(s)
    ensures Descending(Insert(x, s))
    ensures |Insert(x, s)| == |s| + 1
    ensures multiset(Insert(x, s)) == multiset(s) + multiset{x}
    ensures Insert(x, s)[0] == x || (|s| > 0 && Insert(x, s)[0] == s[0])
  {
    if s != [] && x.weight < s[0].weight {
      var tail := Insert(x, s[1..]);
      InsertKeepsDescending(x, s[1..]);
      assert s == [s[0]] + s[1..];
      assert s[0].weight >= tail[0].weight;
    }
  }

  /** The sort yields a descending permutation of its input. */
  lemma {:induction false} SortDescendingSorts(s: seq<BoneWeight>)
    ensures Descending(SortDescending(s))
    ensures |SortDescending(s)| == |s|
    ensures multiset(SortDescending(s)) == multiset(s)
  {
    if s != [] {
      SortDescendingSorts(s[1..]);
      InsertKeepsDescending(s[0], SortDescending(s[1..]));
      assert s == [s[0]] + s[1..];
    }
  }

  /** Sorting an already descending sequence leaves it unchanged. */
  lemma {:induction false} SortKeepsDescending(s: seq<BoneWeight>)
    requires Descending(s)
    ensures SortDescending(s) == s
  {
    if s != [] {
      SortKeepsDescending(s[1..]);
      assert s == [s[0]] + s[1..];
    }
  }
}

=== FILE: buffers.dfy ===
/** The corner-expanded vertex buffer and the flat index buffer that
    `crearMeshSoloColor` and `crearMeshDiffuseMap` write: one vertex per
    triangle corner, read through that corner's coordinate, texture and colour
    indices, and an index buffer that maps corner j to vertex j. */
module Buffers {
  import opened Common
  import opened Records
  import opened VertexWeights

  /** The two vertex formats; a mesh without a material uses vertex colours. */
  datatype RenderType = VertexColor | DiffuseMap

  /** One vertex-buffer entry. `blend` is the normalised influence list of the
      corner's original vertex, which the mesh packs into its blend weights
      and indices. */
  datatype Vertex =
    | VertexColorVertex(position: Vec3, color: int, normal: Vec3, tangent: Vec3, binormal: Vec3,
                        blend: seq<Influence>)
    | DiffuseMapVertex(position: Vec3, color: int, tu: real, tv: real, normal: Vec3, tangent: Vec3,
                       binormal: Vec3, blend: seq<Influence>)

  /** The flat-array offset of a vertex's first coordinate: `index * 3` as a C# int. */
  function CoordBase(index: int): int {
    Int32(index * 3)
  }

  /** The flat-array offset of a texture coordinate: `index * 2` as a C# int. */
  function TexBase(index: int): int {
    Int32(index * 2)
  }

  /** The loader can read three floats at `b`, `b + 1`, `b + 2`. */
  predicate Vec3Readable(s: seq<real>, b: int) {
    0 <= b < |s| && 0 <= Int32(b + 1) < |s| && 0 <= Int32(b + 2) < |s|
  }

  /** An optional channel is readable when absent or when its three floats are in range. */
  predicate ChannelReadable(s: Option<seq<real>>, b: int) {
    s.None? || Vec3Readable(s.value, b)
  }

  /** The vector stored at `b`, or the zero vector for an absent channel. */
  function ChannelAt(s: Option<seq<real>>, b: int): Vec3
    requires ChannelReadable(s, b)
  {
    match s
    case None => Zero3
    case Some(a) => Vec3(a[b], a[Int32(b + 1)], a[Int32(b + 2)])
  }

  function ReadVec3(s: seq<real>, b: int): (r: Result<Vec3>)
    ensures r.Ok? <==> Vec3Readable(s, b)
    ensures r.Err? ==> r.error == IndexOutOfRange
    ensures r.Ok? ==> r.value == ChannelAt(Some(s), b)
  {
    var x :- At(s, b);
    var y :- At(s, Int32(b + 1));
    var z :- At(s, Int32(b + 2));
    Ok(Vec3(x, y, z))
  }

  function ReadChannel(s: Option<seq<real>>, b: int): (r: Result<Vec3>)
    ensures r.Ok? <==> ChannelReadable(s, b)
    ensures r.Err? ==> r.error == IndexOutOfRange
    ensures r.Ok? ==> r.value == ChannelAt(s, b)
  {
    match s
    case None => Ok(Zero3)
    case Some(a) => ReadVec3(a, b)
  }

  /** Every array read the loader performs for corner `j` is in range, with
      `vertexCount` weight lists to index. */
  predicate CornerReadable(layout: RenderType, data: MeshData, vertexCount: nat, j: nat)
    requires j < |data.coordinatesIndices|
  {
    var ci := data.coordinatesIndices[j];
    var b := CoordBase(ci);
    && Vec3Readable(data.verticesCoordinates, b)
    && (layout == DiffuseMap ==>
          && j < |data.texCoordinatesIndices|
          && 0 <= TexBase(data.texCoordinatesIndices[j]) < |data.textureCoordinates|
          && 0 <= Int32(TexBase(data.texCoordinatesIndices[j]) + 1) < |data.textureCoordinates|)
    && j < |data.colorIndices|
    && 0 <= data.colorIndices[j] < |data.verticesColors|
    && ChannelReadable(data.verticesNormals, b)
    && ChannelReadable(data.verticesTangents, b)
    && ChannelReadable(data.verticesBinormals, b)
    && 0 <= ci < vertexCount
  }

  /** The vertex for corner `j`: position, normal, tangent and binormal at the
      corner's coordinate index, colour at its colour index, texture coordinate
      (diffuse layout) at its texture index, and the influences of the
      original vertex the corner refers to. */
  function BuildVertex(layout: RenderType, data: MeshData, weights: seq<seq<Influence>>, j: nat): (r: Result<Vertex>)
    requires j < |data.coordinatesIndices|
    ensures r.Ok? <==> CornerReadable(layout, data, |weights|, j)
    ensures r.Err? ==> r.error == IndexOutOfRange
    ensures r.Ok? ==> (r.value.DiffuseMapVertex? <==> layout == DiffuseMap)
    ensures r.Ok? ==>
      var ci := data.coordinatesIndices[j];
      var b := CoordBase(ci);
      && r.value.position == ChannelAt(Some(data.verticesCoordinates), b)
      && r.value.color == data.verticesColors[data.colorIndices[j]]
      && r.value.normal == ChannelAt(data.verticesNormals, b)
      && r.value.tangent == ChannelAt(data.verticesTangents, b)
      && r.value.binormal == ChannelAt(data.verticesBinormals, b)
      && r.value.blend == weights[ci]
    ensures r.Ok? && layout == DiffuseMap ==>
      var t := TexBase(data.texCoordinatesIndices[j]);
      r.value.tu == data.textureCoordinates[t] && r.value.tv == data.textureCoordinates[Int32(t + 1)]
  {
    var ci := data.coordinatesIndices[j];
    var b := CoordBase(ci);
    var position :- ReadVec3(data.verticesCoordinates, b);
    var texCoord :- if layout == DiffuseMap then
                      var ti :- At(data.texCoordinatesIndices, j);
                      var t := TexBase(ti);
                      var tu :- At(data.textureCoordinates, t);
                      var tv :- At(data.textureCoordinates, Int32(t + 1));
                      Ok((tu, tv))
                    else Ok((0.0, 0.0));
    var colorIdx :- At(data.colorIndices, j);
    var color :- At(data.verticesColors, colorIdx);
    var normal :- ReadChannel(data.verticesNormals, b);
    var tangent :- ReadChannel(data.verticesTangents, b);
    var binormal :- ReadChannel(data.verticesBinormals, b);
    var blend :- At(weights, ci);
    Ok(match layout
       case VertexColor => VertexColorVertex(position, color, normal, tangent, binormal, blend)
       case DiffuseMap => DiffuseMapVertex(position, color, texCoord.0, texCoord.1, normal, tangent, binormal, blend))
  }

  /** The vertices of the first `k` corners, in corner order. */
  function BuildVertices(layout: RenderType, data: MeshData, weights: seq<seq<Influence>>, k: nat): (r: Result<seq<Vertex>>)
    requires k <= |data.coordinatesIndices|
    ensures r.Ok? <==> forall j :: 0 <= j < k ==> CornerReadable(layout, data, |weights|, j)
    ensures r.Err? ==> r.error == IndexOutOfRange
    ensures r.Ok? ==> |r.value| == k
    ensures r.Ok? ==> forall j :: 0 <= j < k ==> BuildVertex(layout, data, weights, j) == Ok(r.value[j])
  {
    if k == 0 then Ok([])
    else
      var prefix :- BuildVertices(layout, data, weights, k - 1);
      var v :- BuildVertex(layout, data, weights, k - 1);
      Ok(prefix + [v])
  }

  /** The vertex buffer: one entry per triangle corner. */
  function BuildVertexBuffer(layout: RenderType, data: MeshData, weights: seq<seq<Influence>>): (r: Result<seq<Vertex>>)
    ensures r.Ok? <==> forall j :: 0 <= j < |data.coordinatesIndices| ==> CornerReadable(layout, data, |weights|, j)
    ensures r.Err? ==> r.error == IndexOutOfRange
    ensures r.Ok? ==> |r.value| == |data.coordinatesIndices|
    ensures r.Ok? ==> forall j :: 0 <= j < |r.value| ==> BuildVertex(layout, data, weights, j) == Ok(r.value[j])
  {
    BuildVertices(layout, data, weights, |data.coordinatesIndices|)
  }

  /** The flat index buffer: entry j is `(short)j`. */
  function IndexBuffer(n: nat): (r: seq<int>)
    ensures |r| == n
    ensures forall j :: 0 <= j < n ==> -TwoTo16 / 2 <= r[j] < TwoTo16 / 2 && Unsigned16(r[j]) == j % TwoTo16
    ensures n <= TwoTo16 / 2 ==> forall j :: 0 <= j < n ==> r[j] == j
  {
    var r := seq(n, j requires 0 <= j < n => Int16(j));
    forall j | 0 <= j < n
      ensures Unsigned16(r[j]) == j % TwoTo16
    {
      SameResidue(Unsigned16(r[j]), j);
    }
    r
  }

  lemma SameResidue(u: nat, j: int)
    requires u < TwoTo16 && (u - j) % TwoTo16 == 0
    ensures u == j % TwoTo16
  {
    var q := (u - j) / TwoTo16;
    assert u - j == q * TwoTo16;
    assert j == u - q * TwoTo16;
  }

  /** With at most 32768 corners the index buffer is the identity: indexing
      the vertex buffer with entry j gives back corner j's vertex. */
  lemma IndexBufferSelectsCorner(layout: RenderType, data: MeshData, weights: seq<seq<Influence>>, j: nat)
    requires BuildVertexBuffer(layout, data, weights).Ok?
    requires |data.coordinatesIndices| <= TwoTo16 / 2
    requires j < |data.coordinatesIndices|
    ensures var ib := IndexBuffer(|data.coordinatesIndices|);
      var vb := BuildVertexBuffer(layout, data, weights).value;
      0 <= ib[j] < |vb| && Ok(vb[ib[j]]) == BuildVertex(layout, data, weights, j)
  {
  }

  /** For an in-range coordinate index whose offsets do not overflow, the
      corner reads the three consecutive floats of its vertex. */
  lemma CornerReadsVertexTriple(layout: RenderType, data: MeshData, weights: seq<seq<Influence>>, j: nat)
    requires j < |data.coordinatesIndices|
    requires BuildVertex(layout, data, weights, j).Ok?
    requires 0 <= data.coordinatesIndices[j] && 3 * data.coordinatesIndices[j] + 2 < TwoTo31
    ensures var ci := data.coordinatesIndices[j];
      var v := BuildVertex(layout, data, weights, j).value;
      && v.position == Vec3(data.verticesCoordinates[3 * ci], data.verticesCoordinates[3 * ci + 1],
                            data.verticesCoordinates[3 * ci + 2])
      && (data.verticesNormals.Some? ==>
            v.normal == Vec3(data.verticesNormals.value[3 * ci], data.verticesNormals.value[3 * ci + 1],
                             data.verticesNormals.value[3 * ci + 2]))
      && (data.verticesNormals.None? ==> v.normal == Zero3)
      && v.blend == weights[ci]
  {
  }

  /** Corners sharing a coordinate index share position and influences, however
      far apart they are in the buffer: the buffer duplicates, it does not share. */
  lemma SharedCornersDuplicateVertex(layout: RenderType, data: MeshData, weights: seq<seq<Influence>>, i: nat, j: nat)
    requires BuildVertexBuffer(layout, data, weights).Ok?
    requires i < j < |data.coordinatesIndices|
    requires data.coordinatesIndices[i] == data.coordinatesIndices[j]
    ensures var vb := BuildVertexBuffer(layout, data, weights).value;
      vb[i].position == vb[j].position && vb[i].blend == vb[j].blend
      && vb[i].normal == vb[j].normal && vb[i].tangent == vb[j].tangent && vb[i].binormal == vb[j].binormal
  {
    var vb := BuildVertexBuffer(layout, data, weights).value;
    assert BuildVertex(layout, data, weights, i) == Ok(vb[i]);
    assert BuildVertex(layout, data, weights, j) == Ok(vb[j]);
  }
}

=== FILE: common.dfy ===
/** Shared vocabulary of the skeletal loader model: plain vector records,
    the failure-compatible Result used in place of .NET exceptions, and the
    explicit 32-/16-bit integer conversions the C# code performs. */
module Common {

  datatype Vec3 = Vec3(x: real, y: real, z: real)

  /** The zero vector the loader writes when a normal/tangent/binormal channel is absent. */
  const Zero3: Vec3 := Vec3(0.0, 0.0, 0.0)

  /** A quaternion in (x, y, z, w) order, as read from the records. */
  datatype Quat = Quat(x: real, y: real, z: real, w: real)

  /** An RGBA colour value. */
  datatype Color4 = Color4(r: real, g: real, b: real, a: real)

  /** A nullable reference of the C# code. */
  datatype Option<+T> = None | Some(value: T)

  /** The exceptions the loader can raise. */
  datatype Error =
    | IndexOutOfRange       // an array indexer outside the array
    | NullReference         // a member access on a null reference
    | ArgumentError         // Array.Copy asked to copy more than the source holds
    | DuplicateKey(key: string)  // Dictionary.Add with a key already present

  datatype Result<+T> = Ok(value: T) | Err(error: Error) {
    predicate IsFailure() {
      Err?
    }

    function PropagateFailure<U>(): Result<U>
      requires Err?
    {
      Err(error)
    }

    function Extract(): T
      requires Ok?
    {
      value
    }
  }

  /** C# array indexing: the element, or IndexOutOfRange. */
  function At<T>(s: seq<T>, i: int): Result<T> {
    if 0 <= i < |s| then Ok(s[i]) else Err(IndexOutOfRange)
  }

  /** A dictionary lookup (`ContainsKey` then the indexer): the value, or nothing. */
  function Lookup<K, V>(m: map<K, V>, k: K): (r: Option<V>)
    ensures r.Some? <==> k in m
    ensures r.Some? ==> r.value == m[k]
  {
    if k in m then Some(m[k]) else None
  }

  const TwoTo16: int := 0x1_0000
  const TwoTo31: int := 0x8000_0000
  const TwoTo32: int := 0x1_0000_0000

  /** The value of an unchecked C# `int` expression whose mathematical value is `x`. */
  function Int32(x: int): (r: int)
    ensures -TwoTo31 <= r < TwoTo31
    ensures (x - r) % TwoTo32 == 0
    ensures -TwoTo31 <= x < TwoTo31 ==> r == x
  {
    var m := x % TwoTo32;
    if m < TwoTo31 then m else m - TwoTo32
  }

  /** The unchecked C# cast `(short)x`. */
  function Int16(x: int): (r: int)
    ensures -TwoTo16 / 2 <= r < TwoTo16 / 2
    ensures (x - r) % TwoTo16 == 0
    ensures -TwoTo16 / 2 <= x < TwoTo16 / 2 ==> r == x
  {
    var m := x % TwoTo16;
    if m < TwoTo16 / 2 then m else m - TwoTo16
  }

  /** How a 16-bit index buffer reads a stored `short`: as an unsigned 16-bit value. */
  function Unsigned16(s: int): (u: nat)
    requires -TwoTo16 / 2 <= s < TwoTo16 / 2
    ensures u < TwoTo16
    ensures (u - s) % TwoTo16 == 0
  {
    if s < 0 then s + TwoTo16 else s
  }

  /** The C# cast `(int)f` of a float: truncation toward zero. */
  function Truncate(f: real): (n: int)
    ensures 0.0 <= f ==> n as real <= f < n as real + 1.0
    ensures f <= 0.0 ==> n as real - 1.0 < f <= n as real
  {
    if f >= 0.0 then f.Floor else -((-f).Floor)
  }
}

=== FILE: materials.dfy ===
/** The material and texture resolver: `createTextureAndMaterial` and the
    material loop of `loadMesh`. Texture creation is a foreign resource load,
    modelled as an opaque handle with a serial number that tells loaded
    instances apart. The loader's texture dictionary is cleared at the start
    of every material creation, so a lookup never finds an entry and every
    material that names a file gets a newly created texture.

    The Direct3D `Material` is a value type: `createTextureAndMaterial`
    stores a copy of a freshly constructed, all-zero material before it sets
    the colours on its local variable, so every leaf keeps the zero material
    and the record's colours are lost. */
module Materials {
  import opened Common
  import opened Records

  /** A loaded texture instance: `serial` distinguishes separate loads of the same file. */
  datatype Texture = Texture(serial: nat, fileName: string, path: string)

  /** The Direct3D material colours. */
  datatype Material = Material(ambient: Color4, diffuse: Color4, specular: Color4)

  /** The all-zero material a multi-material's own entry keeps. */
  const DefaultMaterial: Material :=
    Material(Color4(0.0, 0.0, 0.0, 0.0), Color4(0.0, 0.0, 0.0, 0.0), Color4(0.0, 0.0, 0.0, 0.0))

  /** A resolved material: a leaf has no sub-materials; a multi-material has them. */
  datatype MaterialAux = MaterialAux(material: Material, texture: Option<Texture>, subMaterials: Option<seq<MaterialAux>>)

  /** The loader's texture dictionary and the number of textures created so far. */
  datatype TextureLoader = TextureLoader(cache: map<string, Texture>, created: nat)

  datatype Created = Created(aux: MaterialAux, loader: TextureLoader)
  datatype SubsCreated = SubsCreated(auxs: seq<MaterialAux>, loader: TextureLoader)
  datatype MaterialsLoaded = MaterialsLoaded(slots: seq<Option<MaterialAux>>, loader: TextureLoader)

  /** Every texture the dictionary holds was created before the next serial:
      holds for the empty dictionary the loader starts with, and every
      material creation keeps it. */
  predicate Valid(l: TextureLoader) {
    forall f :: f in l.cache ==> l.cache[f].serial < l.created
  }

  /** The directory the loader looks for textures in. */
  function TexturesPath(mediaPath: string, texturesDir: string): string {
    mediaPath + texturesDir + "\\"
  }

  /** The textures path already ends in a separator and the file name is
      joined with another, so a loaded texture's path holds two in a row. */
  lemma TexturePathDoubleSeparator(mediaPath: string, texturesDir: string, data: MaterialData, t: Option<Texture>)
    requires TextureFor(t, data, TexturesPath(mediaPath, texturesDir)) && t.Some?
    ensures t.value.path == mediaPath + texturesDir + "\\\\" + data.fileName.value
  {
    assert mediaPath + texturesDir + "\\" + "\\" == mediaPath + texturesDir + "\\\\";
  }

  /** The colours of a material record, copied field by field: the material
      the leaf is evidently meant to keep. */
  function MaterialOf(data: MaterialData): Material {
    Material(data.ambientColor, data.diffuseColor, data.specularColor)
  }

  /** `t` is the texture resolved for `data`: present exactly when the record
      names a file, and then that file loaded from `texturesPath`. */
  predicate TextureFor(t: Option<Texture>, data: MaterialData, texturesPath: string) {
    && (t.Some? <==> data.fileName.Some?)
    && (t.Some? ==>
          && t.value.fileName == data.fileName.value
          && t.value.path == texturesPath + "\\" + data.fileName.value)
  }

  /** `aux` is the leaf resolved from `data`: the zero material, no
      sub-materials, and the record's texture. */
  predicate LeafFrom(aux: MaterialAux, data: MaterialData, texturesPath: string) {
    && aux.material == DefaultMaterial
    && aux.subMaterials.None?
    && TextureFor(aux.texture, data, texturesPath)
  }

  /** `slot` is the materials-array entry resolved from `data`. */
  predicate SlotFrom(slot: Option<MaterialAux>, data: MaterialData, texturesPath: string) {
    match data.kind
    case StandardMaterial => slot.Some? && LeafFrom(slot.value, data, texturesPath)
    case MultiMaterial =>
      && slot.Some?
      && slot.value.material == DefaultMaterial
      && slot.value.texture.None?
      && slot.value.subMaterials.Some?
      && |slot.value.subMaterials.value| == |data.subMaterials|
      && forall j :: 0 <= j < |data.subMaterials| ==> LeafFrom(slot.value.subMaterials.value[j], data.subMaterials[j], texturesPath)
    case OtherMaterial(_) => slot.None?
  }

  /** `createTextureAndMaterial`: stores the zero material (the colours go to
      a local copy only), clears the dictionary and, when the record names a
      file, looks it up and, missing it, creates a new texture and caches it. */
  function CreateTextureAndMaterial(loader: TextureLoader, data: MaterialData, texturesPath: string): (r: Created)
    ensures LeafFrom(r.aux, data, texturesPath)
    ensures data.fileName.Some? ==>
      && r.aux.texture.value == Texture(loader.created, data.fileName.value, texturesPath + "\\" + data.fileName.value)
      && r.loader == TextureLoader(map[data.fileName.value := r.aux.texture.value], loader.created + 1)
    ensures data.fileName.None? ==> r.loader == TextureLoader(map[], loader.created)
    ensures Valid(r.loader)
  {
    var cleared := loader.(cache := map[]);
    match data.fileName
    case None => Created(MaterialAux(DefaultMaterial, None, None), cleared)
    case Some(f) =>
      match Lookup(cleared.cache, f)
      case Some(cached) => Created(MaterialAux(DefaultMaterial, Some(cached), None), cleared)
      case None =>
        var texture := Texture(cleared.created, f, texturesPath + "\\" + f);
        Created(MaterialAux(DefaultMaterial, Some(texture), None),
                TextureLoader(cleared.cache[f := texture], cleared.created + 1))
  }

  /** The lookup after the clear never hits, whatever the dictionary held:
      a file the dictionary already caches gets a newly created texture, not
      the cached one. */
  lemma CachedFileCreatedAgain(loader: TextureLoader, data: MaterialData, texturesPath: string)
    requires Valid(loader)
    requires data.fileName.Some? && data.fileName.value in loader.cache
    ensures Lookup(loader.(cache := map[]).cache, data.fileName.value).None?
    ensures var t := CreateTextureAndMaterial(loader, data, texturesPath).aux.texture.value;
      && t != loader.cache[data.fileName.value]
      && t.serial == loader.created
  {
  }

  /** `createTextureAndMaterial` with the colours stored on the leaf, as the
      code evidently intends: the same texture and dictionary, and the
      record's colours. */
  function CreateTextureAndMaterialIntended(loader: TextureLoader, data: MaterialData, texturesPath: string): (r: Created)
    ensures r.aux.material.ambient == data.ambientColor
    ensures r.aux.material.diffuse == data.diffuseColor
    ensures r.aux.material.specular == data.specularColor
    ensures r.aux.texture == CreateTextureAndMaterial(loader, data, texturesPath).aux.texture
    ensures r.aux.subMaterials.None?
    ensures r.loader == CreateTextureAndMaterial(loader, data, texturesPath).loader
  {
    var c := CreateTextureAndMaterial(loader, data, texturesPath);
    Created(c.aux.(material := MaterialOf(data)), c.loader)
  }

  /** A record with any nonzero colour loses it: the leaf the code builds
      differs from the intended one exactly in its material. */
  lemma ColoursLost(loader: TextureLoader, data: MaterialData, texturesPath: string)
    requires data.ambientColor != Color4(0.0, 0.0, 0.0, 0.0)
    ensures CreateTextureAndMaterial(loader, data, texturesPath).aux.material.ambient == Color4(0.0, 0.0, 0.0, 0.0)
    ensures CreateTextureAndMaterial(loader, data, texturesPath).aux
         != CreateTextureAndMaterialIntended(loader, data, texturesPath).aux
  {
  }

  /** 1 when the record names a texture file. */
  function HasFile(data: MaterialData): nat {
    if data.fileName.Some? then 1 else 0
  }

  function SubFileCount(subs: seq<MaterialData>): nat {
    if subs == [] then 0 else HasFile(subs[0]) + SubFileCount(subs[1..])
  }

  /** The number of textures the material loop creates for one record. */
  function RecordFileCount(data: MaterialData): nat {
    match data.kind
    case StandardMaterial => HasFile(data)
    case MultiMaterial => SubFileCount(data.subMaterials)
    case OtherMaterial(_) => 0
  }

  function FileCount(mats: seq<MaterialData>): nat {
    if mats == [] then 0 else RecordFileCount(mats[0]) + FileCount(mats[1..])
  }

  function OwnTexture(aux: MaterialAux): seq<Texture> {
    if aux.texture.Some? then [aux.texture.value] else []
  }

  function SubTextures(subs: seq<MaterialAux>): seq<Texture> {
    if subs == [] then [] else OwnTexture(subs[0]) + SubTextures(subs[1..])
  }

  function SlotTextures(slot: Option<MaterialAux>): seq<Texture> {
    match slot
    case None => []
    case Some(aux) => OwnTexture(aux) + (if aux.subMaterials.Some? then SubTextures(aux.subMaterials.value) else [])
  }

  /** Every texture handle held by a materials array, in creation order. */
  function ArrayTextures(slots: seq<Option<MaterialAux>>): seq<Texture> {
    if slots == [] then [] else SlotTextures(slots[0]) + ArrayTextures(slots[1..])
  }

  /** The textures carry consecutive serials from `start`: each is a separate load. */
  predicate ConsecutiveSerials(ts: seq<Texture>, start: nat) {
    forall k :: 0 <= k < |ts| ==> ts[k].serial == start + k
  }

  lemma ConcatSerials(a: seq<Texture>, b: seq<Texture>, start: nat)
    requires ConsecutiveSerials(a, start) && ConsecutiveSerials(b, start + |a|)
    ensures ConsecutiveSerials(a + b, start)
  {
    forall k | |a| <= k < |a + b|
      ensures (a + b)[k].serial == start + k
    {
      assert (a + b)[k] == b[k - |a|];
    }
  }

  /** The sub-material loop of a multi-material. */
  function CreateSubMaterials(loader: TextureLoader, subs: seq<MaterialData>, texturesPath: string): (r: SubsCreated)
    ensures |r.auxs| == |subs|
    ensures forall j :: 0 <= j < |subs| ==> LeafFrom(r.auxs[j], subs[j], texturesPath)
    ensures r.loader.created == loader.created + SubFileCount(subs)
    ensures |SubTextures(r.auxs)| == SubFileCount(subs)
    ensures ConsecutiveSerials(SubTextures(r.auxs), loader.created)
    ensures Valid(loader) ==> Valid(r.loader)
    decreases |subs|
  {
    if subs == [] then SubsCreated([], loader)
    else
      var first := CreateTextureAndMaterial(loader, subs[0], texturesPath);
      var rest := CreateSubMaterials(first.loader, subs[1..], texturesPath);
      var auxs := [first.aux] + rest.auxs;
      assert auxs[1..] == rest.auxs;
      ConcatSerials(OwnTexture(first.aux), SubTextures(rest.auxs), loader.created);
      SubsCreated(auxs, rest.loader)
  }

  /** One iteration of the material loop of `loadMesh`. */
  function LoadMaterial(loader: TextureLoader, data: MaterialData, texturesPath: string): (r: MaterialsLoaded)
    ensures |r.slots| == 1 && SlotFrom(r.slots[0], data, texturesPath)
    ensures r.loader.created == loader.created + RecordFileCount(data)
    ensures |SlotTextures(r.slots[0])| == RecordFileCount(data)
    ensures ConsecutiveSerials(SlotTextures(r.slots[0]), loader.created)
    ensures Valid(loader) ==> Valid(r.loader)
  {
    match data.kind
    case StandardMaterial =>
      var c := CreateTextureAndMaterial(loader, data, texturesPath);
      MaterialsLoaded([Some(c.aux)], c.loader)
    case MultiMaterial =>
      var subs := CreateSubMaterials(loader, data.subMaterials, texturesPath);
      MaterialsLoaded([Some(MaterialAux(DefaultMaterial, None, Some(subs.auxs)))], subs.loader)
    case OtherMaterial(_) => MaterialsLoaded([None], loader)
  }

  /** The material loop of `loadMesh`: one entry per record, in record order,
      and one newly created texture per standard record naming a file plus one
      per sub-material of a multi-material record naming a file,
      even when several name the same file. */
  function LoadMaterials(loader: TextureLoader, mats: seq<MaterialData>, texturesPath: string): (r: MaterialsLoaded)
    ensures |r.slots| == |mats|
    ensures forall i :: 0 <= i < |mats| ==> SlotFrom(r.slots[i], mats[i], texturesPath)
    ensures r.loader.created == loader.created + FileCount(mats)
    ensures |ArrayTextures(r.slots)| == FileCount(mats)
    ensures ConsecutiveSerials(ArrayTextures(r.slots), loader.created)
    ensures Valid(loader) ==> Valid(r.loader)
    decreases |mats|
  {
    if mats == [] then MaterialsLoaded([], loader)
    else
      var first := LoadMaterial(loader, mats[0], texturesPath);
      var rest := LoadMaterials(first.loader, mats[1..], texturesPath);
      var slots := first.slots + rest.slots;
      assert slots[1..] == rest.slots;
      ConcatSerials(SlotTextures(first.slots[0]), ArrayTextures(rest.slots), loader.created);
      MaterialsLoaded(slots, rest.loader)
  }

  /** No two materials of one load share a texture instance. */
  lemma TexturesNeverShared(loader: TextureLoader, mats: seq<MaterialData>, texturesPath: string)
    ensures var ts := ArrayTextures(LoadMaterials(loader, mats, texturesPath).slots);
      forall a, b :: 0 <= a < b < |ts| ==> ts[a] != ts[b]
  {
    var ts := ArrayTextures(LoadMaterials(loader, mats, texturesPath).slots);
    assert forall a, b :: 0 <= a < b < |ts| ==> ts[a].serial != ts[b].serial;
  }

  /** Two standard materials naming the same file load that file twice. */
  lemma SameFileLoadedTwice(loader: TextureLoader, m1: MaterialData, m2: MaterialData, texturesPath: string)
    requires m1.kind == StandardMaterial && m2.kind == StandardMaterial
    requires m1.fileName == m2.fileName && m1.fileName.Some?
    ensures var slots := LoadMaterials(loader, [m1, m2], texturesPath).slots;
      && slots[0].value.texture.value.fileName == slots[1].value.texture.value.fileName
      && slots[0].value.texture.value != slots[1].value.texture.value
  {
    var r := LoadMaterials(loader, [m1, m2], texturesPath);
    var ts := ArrayTextures(r.slots);
    assert r.slots[1..] == r.slots[1..2];
    assert SlotTextures(r.slots[0]) == [r.slots[0].value.texture.value];
    assert SlotTextures(r.slots[1]) == [r.slots[1].value.texture.value];
    assert ts[0].serial != ts[1].serial;
  }
}

=== FILE: mesh.dfy ===
/** Mesh assembly: `crearMeshSoloColor`, `crearMeshDiffuseMap` and `loadMesh`.
    Both builders load the skeleton and the vertex weights, write the
    corner-expanded vertex buffer and the flat index buffer; the diffuse-map
    builder also picks the material(s) and texture(s) of the mesh's material
    record. `loadMesh` resolves every material record first, chooses the
    builder by `materialId`, and sets the bounding box. */
module MeshAssembly {
  import opened Common
  import opened Records
  import opened Skeleton
  import opened VertexWeights
  import opened Materials
  import opened Buffers

  /** A bounding box given by the record, or one the mesh computes from its
      own vertices (that computation is not part of this model). */
  datatype BoundingBox = ExplicitBox(pMin: Vec3, pMax: Vec3) | ComputedBox

  /** A keyframe of one bone. */
  datatype AnimationFrame = AnimationFrame(frame: int, position: Vec3, rotation: Quat)

  /** An animation: one optional keyframe track per bone of the mesh. */
  datatype SkeletalAnimation = SkeletalAnimation(
    name: string,
    frameRate: int,
    framesCount: int,
    boneFrames: seq<Option<seq<AnimationFrame>>>,
    boundingBox: BoundingBox)

  /** What a builder hands to the mesh factory, plus the material arrays it sets. */
  datatype AssembledMesh = AssembledMesh(
    name: string,
    renderType: RenderType,
    bones: seq<Bone>,
    vertices: seq<Vertex>,
    indices: seq<int>,
    materials: Option<seq<Material>>,
    diffuseMaps: Option<seq<Option<Texture>>>,
    attributes: Option<seq<int>>)    // the attribute buffer, when the builder writes it

  datatype SkeletalMesh = SkeletalMesh(
    assembled: AssembledMesh,
    boundingBox: BoundingBox,
    animations: map<string, SkeletalAnimation>,
    enabled: bool)

  /** The per-subset material arrays and the optional attribute buffer. */
  datatype MaterialSet = MaterialSet(
    materials: seq<Material>,
    textures: seq<Option<Texture>>,
    attributes: Option<seq<int>>)

  datatype Loaded = Loaded(mesh: SkeletalMesh, loader: TextureLoader)

  /** The number of triangles: the corner count divided by three, rounded down. */
  function FaceCount(data: MeshData): nat {
    |data.coordinatesIndices| / 3
  }

  /** The skeleton, the weights and every corner of the given layout load. */
  predicate GeometryLoads(layout: RenderType, data: MeshData) {
    && AllParentsResolvable(data.bones)
    && (forall t :: t in Triples(data.verticesWeights) ==> TripleValid(t, |data.verticesCoordinates| / 3, |data.bones|))
    && (forall j :: 0 <= j < |data.coordinatesIndices| ==> CornerReadable(layout, data, |data.verticesCoordinates| / 3, j))
  }

  /** The skeleton, weights, vertex buffer and index buffer shared by both builders. */
  function BuildGeometry(layout: RenderType, data: MeshData): (r: Result<AssembledMesh>)
    ensures r.Ok? <==> GeometryLoads(layout, data)
    ensures r.Err? ==> r.error == IndexOutOfRange
    ensures r.Ok? ==>
      && r.value.name == data.name
      && r.value.renderType == layout
      && r.value.bones == LoadSkeleton(data.bones).value
      && |r.value.vertices| == |r.value.indices| == |data.coordinatesIndices|
      && r.value.vertices == BuildVertexBuffer(layout, data,
           LoadVerticesWeights(data.verticesCoordinates, data.verticesWeights, |data.bones|).value).value
      && r.value.indices == IndexBuffer(|data.coordinatesIndices|)
      && r.value.materials.None? && r.value.diffuseMaps.None? && r.value.attributes.None?
  {
    var bones :- LoadSkeleton(data.bones);
    var weights :- LoadVerticesWeights(data.verticesCoordinates, data.verticesWeights, |bones|);
    var vertices :- BuildVertexBuffer(layout, data, weights);
    Ok(AssembledMesh(data.name, layout, bones, vertices, IndexBuffer(|data.coordinatesIndices|), None, None, None))
  }

  /** `crearMeshSoloColor`: a vertex-colour mesh without materials. */
  function CrearMeshSoloColor(data: MeshData): (r: Result<AssembledMesh>)
    ensures r.Ok? <==> GeometryLoads(VertexColor, data)
    ensures r.Ok? ==>
      && r.value.renderType == VertexColor
      && r.value.bones == LoadSkeleton(data.bones).value
      && r.value.materials.None? && r.value.diffuseMaps.None? && r.value.attributes.None?
      && |r.value.vertices| == |r.value.indices| == |data.coordinatesIndices|
      && forall j :: 0 <= j < |r.value.vertices| ==> r.value.vertices[j].VertexColorVertex?
  {
    BuildGeometry(VertexColor, data)
  }

  /** The material-selection part of `crearMeshDiffuseMap`: the entry at
      `materialId` must exist and be non-null; a leaf gives one subset, a
      multi-material one subset per sub-material, and the latter copies the
      first `FaceCount` material ids into the attribute buffer. */
  function SelectMaterials(slots: seq<Option<MaterialAux>>, data: MeshData): (r: Result<MaterialSet>)
    ensures r.Ok? <==>
      && 0 <= data.materialId < |slots|
      && slots[data.materialId].Some?
      && (slots[data.materialId].value.subMaterials.Some? ==> |data.materialsIds| >= FaceCount(data))
    ensures r.Ok? && slots[data.materialId].value.subMaterials.None? ==>
      r.value == MaterialSet([slots[data.materialId].value.material], [slots[data.materialId].value.texture], None)
    ensures r.Ok? && slots[data.materialId].value.subMaterials.Some? ==>
      var subs := slots[data.materialId].value.subMaterials.value;
      && |r.value.materials| == |r.value.textures| == |subs|
      && (forall m :: 0 <= m < |subs| ==> r.value.materials[m] == subs[m].material && r.value.textures[m] == subs[m].texture)
      && r.value.attributes == Some(data.materialsIds[..FaceCount(data)])
  {
    var slot :- At(slots, data.materialId);
    match slot
    case None => Err(NullReference)
    case Some(aux) =>
      match aux.subMaterials
      case None => Ok(MaterialSet([aux.material], [aux.texture], None))
      case Some(subs) =>
        if |data.materialsIds| < FaceCount(data) then Err(ArgumentError)
        else
          Ok(MaterialSet(
            seq(|subs|, m requires 0 <= m < |subs| => subs[m].material),
            seq(|subs|, m requires 0 <= m < |subs| => subs[m].texture),
            Some(data.materialsIds[..FaceCount(data)])))
  }

  /** `crearMeshDiffuseMap`: the geometry in the diffuse-map layout, then the materials. */
  function CrearMeshDiffuseMap(slots: seq<Option<MaterialAux>>, data: MeshData): (r: Result<AssembledMesh>)
    ensures r.Ok? <==> GeometryLoads(DiffuseMap, data) && SelectMaterials(slots, data).Ok?
    ensures r.Ok? ==>
      var chosen := SelectMaterials(slots, data).value;
      && r.value.renderType == DiffuseMap
      && r.value.bones == LoadSkeleton(data.bones).value
      && r.value.materials == Some(chosen.materials)
      && r.value.diffuseMaps == Some(chosen.textures)
      && r.value.attributes == chosen.attributes
      && |r.value.vertices| == |r.value.indices| == |data.coordinatesIndices|
      && forall j :: 0 <= j < |r.value.vertices| ==> r.value.vertices[j].DiffuseMapVertex?
  {
    var geometry :- BuildGeometry(DiffuseMap, data);
    var chosen :- SelectMaterials(slots, data);
    Ok(geometry.(materials := Some(chosen.materials), diffuseMaps := Some(chosen.textures), attributes := chosen.attributes))
  }

  /** The material record `materialId` names can be used: it exists, has a
      known type, and a multi-material has a material id for every triangle. */
  predicate MaterialSelectable(data: MeshData) {
    && 0 <= data.materialId < |data.materialsData|
    && !data.materialsData[data.materialId].kind.OtherMaterial?
    && (data.materialsData[data.materialId].kind.MultiMaterial? ==> |data.materialsIds| >= FaceCount(data))
  }

  /** The bounding box `loadMesh` sets: the record's, when both corners are given. */
  function MeshBox(data: MeshData): BoundingBox {
    if data.pMin.Some? && data.pMax.Some? then ExplicitBox(data.pMin.value, data.pMax.value) else ComputedBox
  }

  /** The mesh loads: its geometry in the layout `materialId` selects and, for
      a textured mesh, its material record. */
  predicate MeshLoads(data: MeshData) {
    if data.materialId == -1 then GeometryLoads(VertexColor, data)
    else GeometryLoads(DiffuseMap, data) && MaterialSelectable(data)
  }

  /** `loadMesh`: resolves every material record (creating their textures
      whether or not the mesh uses them), then builds a vertex-colour mesh
      when `materialId` is -1 and a diffuse-map mesh otherwise. */
  function LoadMesh(loader: TextureLoader, data: MeshData, mediaPath: string): (r: Result<Loaded>)
    ensures r.Ok? <==> MeshLoads(data)
    ensures r.Ok? ==>
      var mesh := r.value.mesh.assembled;
      && (mesh.renderType == VertexColor <==> data.materialId == -1)
      && (data.materialId == -1 ==> mesh.materials.None? && mesh.diffuseMaps.None? && mesh.attributes.None?)
      && mesh.bones == LoadSkeleton(data.bones).value
      && |mesh.vertices| == |mesh.indices| == |data.coordinatesIndices|
      && r.value.mesh.boundingBox == MeshBox(data)
      && r.value.mesh.animations == map[]
      && r.value.mesh.enabled
      && r.value.loader.created == loader.created + FileCount(data.materialsData)
      && (Valid(loader) ==> Valid(r.value.loader))
  {
    var resolved := LoadMaterials(loader, data.materialsData, TexturesPath(mediaPath, data.texturesDir));
    if data.materialId == -1 then
      var assembled :- CrearMeshSoloColor(data);
      Ok(Loaded(SkeletalMesh(assembled, MeshBox(data), map[], true), resolved.loader))
    else
      SelectFromResolved(resolved.slots, data, TexturesPath(mediaPath, data.texturesDir));
      var assembled :- CrearMeshDiffuseMap(resolved.slots, data);
      Ok(Loaded(SkeletalMesh(assembled, MeshBox(data), map[], true), resolved.loader))
  }

  /** A textured mesh takes its materials from the record `materialId` names:
      one subset for a standard material, one per sub-material for a
      multi-material, each with the zero material (the colours are lost when
      the leaf is created), a texture exactly where the record names a file, and
      for a multi-material the first `FaceCount` material ids as attributes. */
  lemma LoadMeshMaterials(loader: TextureLoader, data: MeshData, mediaPath: string)
    requires data.materialId != -1 && GeometryLoads(DiffuseMap, data) && MaterialSelectable(data)
    ensures data.materialsData[data.materialId].kind == StandardMaterial ==>
      var mesh := LoadMesh(loader, data, mediaPath).value.mesh.assembled;
      var record := data.materialsData[data.materialId];
      && mesh.materials == Some([DefaultMaterial])
      && |mesh.diffuseMaps.value| == 1
      && TextureFor(mesh.diffuseMaps.value[0], record, TexturesPath(mediaPath, data.texturesDir))
      && mesh.attributes.None?
    ensures data.materialsData[data.materialId].kind == MultiMaterial ==>
      var mesh := LoadMesh(loader, data, mediaPath).value.mesh.assembled;
      var subs := data.materialsData[data.materialId].subMaterials;
      && |mesh.materials.value| == |mesh.diffuseMaps.value| == |subs|
      && (forall m :: 0 <= m < |subs| ==>
            mesh.materials.value[m] == DefaultMaterial &&
            TextureFor(mesh.diffuseMaps.value[m], subs[m], TexturesPath(mediaPath, data.texturesDir)))
      && mesh.attributes == Some(data.materialsIds[..FaceCount(data)])
  {
    var slots := LoadMaterials(loader, data.materialsData, TexturesPath(mediaPath, data.texturesDir)).slots;
    SelectFromResolved(slots, data, TexturesPath(mediaPath, data.texturesDir));
    assert LoadMesh(loader, data, mediaPath).value.mesh.assembled == CrearMeshDiffuseMap(slots, data).value;
  }

  /** Selecting from the resolved materials array succeeds exactly when the
      record `materialId` names is selectable, and yields one zero material and
      the texture of each leaf of that record. */
  lemma SelectFromResolved(slots: seq<Option<MaterialAux>>, data: MeshData, texturesPath: string)
    requires |slots| == |data.materialsData|
    requires forall i :: 0 <= i < |slots| ==> SlotFrom(slots[i], data.materialsData[i], texturesPath)
    ensures SelectMaterials(slots, data).Ok? <==> MaterialSelectable(data)
    ensures MaterialSelectable(data) && data.materialsData[data.materialId].kind == StandardMaterial ==>
      var chosen := SelectMaterials(slots, data).value;
      var record := data.materialsData[data.materialId];
      && chosen.materials == [DefaultMaterial]
      && |chosen.textures| == 1
      && TextureFor(chosen.textures[0], record, texturesPath)
      && chosen.attributes.None?
    ensures MaterialSelectable(data) && data.materialsData[data.materialId].kind == MultiMaterial ==>
      var chosen := SelectMaterials(slots, data).value;
      var subs := data.materialsData[data.materialId].subMaterials;
      && |chosen.materials| == |chosen.textures| == |subs|
      && (forall m :: 0 <= m < |subs| ==>
            chosen.materials[m] == DefaultMaterial && TextureFor(chosen.textures[m], subs[m], texturesPath))
      && chosen.attributes == Some(data.materialsIds[..FaceCount(data)])
  {
  }

  /** A multi-material mesh whose record gives one material id per triangle,
      each naming one of its sub-materials, stores exactly those ids. */
  lemma MultiMaterialAttributesInRange(loader: TextureLoader, data: MeshData, mediaPath: string)
    requires data.materialId != -1 && GeometryLoads(DiffuseMap, data) && MaterialSelectable(data)
    requires data.materialsData[data.materialId].kind == MultiMaterial
    requires |data.materialsIds| == FaceCount(data)
    requires forall k :: 0 <= k < |data.materialsIds| ==>
      0 <= data.materialsIds[k] < |data.materialsData[data.materialId].subMaterials|
    ensures var mesh := LoadMesh(loader, data, mediaPath).value.mesh.assembled;
      && mesh.attributes.Some? && mesh.materials.Some?
      && |mesh.attributes.value| == |data.materialsIds|
      && forall k :: 0 <= k < |mesh.attributes.value| ==> 0 <= mesh.attributes.value[k] < |mesh.materials.value|
  {
    LoadMeshMaterials(loader, data, mediaPath);
    assert data.materialsIds[..FaceCount(data)] == data.materialsIds;
  }

  /** The attribute buffer copies the material ids without a range check: an
      id at or past the sub-material count is stored as it is, naming no
      material of the mesh. */
  lemma AttributeIdsUnchecked(loader: TextureLoader, data: MeshData, mediaPath: string, k: nat)
    requires data.materialId != -1 && GeometryLoads(DiffuseMap, data) && MaterialSelectable(data)
    requires data.materialsData[data.materialId].kind == MultiMaterial
    requires k < FaceCount(data)
    ensures var mesh := LoadMesh(loader, data, mediaPath).value.mesh.assembled;
      && mesh.attributes.Some? && k < |mesh.attributes.value|
      && mesh.attributes.value[k] == data.materialsIds[k]
      && (data.materialsIds[k] >= |data.materialsData[data.materialId].subMaterials| ==>
            mesh.materials.Some? && mesh.attributes.value[k] >= |mesh.materials.value|)
  {
    LoadMeshMaterials(loader, data, mediaPath);
    var mesh := LoadMesh(loader, data, mediaPath).value.mesh.assembled;
    assert mesh.attributes == Some(data.materialsIds[..FaceCount(data)]);
    assert |mesh.materials.value| == |data.materialsData[data.materialId].subMaterials|;
  }
}

=== FILE: records.dfy ===
/** The records the TGC skeletal XML parser hands to the loader. The parser
    itself is not part of this model; its fixed-size float arrays (bone
    positions, quaternions, colours, bounding corners) appear here already
    as vectors, and its variable-length arrays as sequences. */
module Records {
  import opened Common

  datatype BoneData = BoneData(
    name: string,
    parentId: int,          // -1 for a root bone
    startPosition: Vec3,
    startRotation: Quat)

  /** The type tag of a material record; the two known tags are compared by
      value in the loader, any other tag leaves the material slot null. */
  datatype MaterialKind = StandardMaterial | MultiMaterial | OtherMaterial(tag: string)

  datatype MaterialData = MaterialData(
    kind: MaterialKind,
    ambientColor: Color4,
    diffuseColor: Color4,
    specularColor: Color4,
    fileName: Option<string>,
    subMaterials: seq<MaterialData>)

  datatype MeshData = MeshData(
    name: string,
    materialId: int,                      // -1: no material, vertex colours only
    materialsData: seq<MaterialData>,
    texturesDir: string,
    verticesCoordinates: seq<real>,       // 3 floats per vertex
    verticesNormals: Option<seq<real>>,   // same layout, may be null
    verticesTangents: Option<seq<real>>,
    verticesBinormals: Option<seq<real>>,
    textureCoordinates: seq<real>,        // 2 floats per texture coordinate
    coordinatesIndices: seq<int>,         // one per triangle corner
    texCoordinatesIndices: seq<int>,
    colorIndices: seq<int>,
    verticesColors: seq<int>,             // packed ARGB colours
    materialsIds: seq<int>,               // one per triangle
    bones: seq<BoneData>,
    verticesWeights: seq<real>,           // flat (vertex, bone, weight) triples
    pMin: Option<Vec3>,
    pMax: Option<Vec3>)

  datatype FrameData = FrameData(frame: int, position: Vec3, rotation: Quat)

  datatype BoneFramesData = BoneFramesData(id: int, keyFrames: seq<FrameData>)

  datatype AnimationData = AnimationData(
    name: string,
    frameRate: int,
    framesCount: int,
    bonesFrames: seq<BoneFramesData>,
    pMin: Option<Vec3>,
    pMax: Option<Vec3>)
}

=== FILE: skeleton.dfy ===
/** The skeleton builder (`loadSkeleton`): one bone per bone record, in
    record order, and a second pass that links every bone to its parent.
    A parent link is an index into the same bone array. */
module Skeleton {
  import opened Common
  import opened Records

  /** A bone of the assembled skeleton; `parent` is the index of the parent bone. */
  datatype Bone = Bone(
    id: nat,
    name: string,
    startPosition: Vec3,
    startRotation: Quat,
    parent: Option<nat>)

  /** The parent ids the second pass accepts: -1, or ANY index into the bone
      array, including the bone's own index and later ones. */
  predicate ParentResolvable(parentId: int, count: nat) {
    parentId == -1 || 0 <= parentId < count
  }

  predicate AllParentsResolvable(records: seq<BoneData>) {
    forall i :: 0 <= i < |records| ==> ParentResolvable(records[i].parentId, |records|)
  }

  /** The bone the first pass creates for record `i`, before its parent is set. */
  function Unlinked(records: seq<BoneData>, i: nat): Bone
    requires i < |records|
  {
    Bone(i, records[i].name, records[i].startPosition, records[i].startRotation, None)
  }

  /** Second pass, from record `i` on: set each bone's parent, or fail on the
      first parent id that does not index the bone array. */
  function LinkParents(records: seq<BoneData>, bones: seq<Bone>, i: nat): (r: Result<seq<Bone>>)
    requires |bones| == |records| && i <= |records|
    ensures r.Ok? <==> forall k :: i <= k < |records| ==> ParentResolvable(records[k].parentId, |records|)
    ensures r.Err? ==> r.error == IndexOutOfRange
    ensures r.Ok? ==> |r.value| == |records|
    ensures r.Ok? ==> forall k :: 0 <= k < i ==> r.value[k] == bones[k]
    ensures r.Ok? ==> forall k :: i <= k < |records| ==>
      r.value[k] == bones[k].(parent := if records[k].parentId == -1 then None else Some(records[k].parentId as nat))
    decreases |records| - i
  {
    if i == |records| then Ok(bones)
    else
      var p := records[i].parentId;
      if p == -1 then LinkParents(records, bones[i := bones[i].(parent := None)], i + 1)
      else if 0 <= p < |bones| then LinkParents(records, bones[i := bones[i].(parent := Some(p))], i + 1)
      else Err(IndexOutOfRange)
  }

  /** `loadSkeleton`: the bone array has the records' length and order, bone
      `i` carries id `i`, and its parent is absent exactly when the record says
      -1. Nothing requires a parent to precede its child. */
  function LoadSkeleton(records: seq<BoneData>): (r: Result<seq<Bone>>)
    ensures r.Ok? <==> AllParentsResolvable(records)
    ensures r.Err? ==> r.error == IndexOutOfRange
    ensures r.Ok? ==> |r.value| == |records|
    ensures r.Ok? ==> forall i :: 0 <= i < |records| ==>
      && r.value[i].id == i
      && r.value[i].name == records[i].name
      && r.value[i].startPosition == records[i].startPosition
      && r.value[i].startRotation == records[i].startRotation
      && (r.value[i].parent.None? <==> records[i].parentId == -1)
      && (r.value[i].parent.Some? ==> r.value[i].parent.value == records[i].parentId < |records|)
  {
    var created := seq(|records|, i requires 0 <= i < |records| => Unlinked(records, i));
    LinkParents(records, created, 0)
  }

  /** Parents that precede their children in the records precede them in the
      skeleton too: the ordering is whatever the records carry. */
  lemma OrderedRecordsGiveOrderedSkeleton(records: seq<BoneData>)
    requires forall i :: 0 <= i < |records| ==> records[i].parentId == -1 || 0 <= records[i].parentId < i
    ensures LoadSkeleton(records).Ok?
    ensures forall i :: 0 <= i < |records| && LoadSkeleton(records).value[i].parent.Some? ==>
      LoadSkeleton(records).value[i].parent.value < i
  {
  }

  /** A parent declared after its child is linked without complaint. */
  lemma ForwardParentAccepted(a: BoneData, b: BoneData)
    requires a.parentId == 1 && b.parentId == -1
    ensures LoadSkeleton([a, b]).Ok?
    ensures LoadSkeleton([a, b]).value[0].parent == Some(1)
    ensures LoadSkeleton([a, b]).value[1].parent == None
  {
  }

  /** Two bones naming each other as parent form a cycle, which is accepted too. */
  lemma CycleAccepted(a: BoneData, b: BoneData)
    requires a.parentId == 1 && b.parentId == 0
    ensures LoadSkeleton([a, b]).Ok?
    ensures LoadSkeleton([a, b]).value[0].parent == Some(1)
    ensures LoadSkeleton([a, b]).value[1].parent == Some(0)
  {
  }

  /** A parent id past the last bone is an index error. */
  lemma OutOfRangeParentRejected(records: seq<BoneData>)
    requires |records| == 3 && records[2].parentId == 5
    ensures LoadSkeleton(records) == Err(IndexOutOfRange)
  {
    assert !ParentResolvable(records[2].parentId, |records|);
  }
}

=== FILE: vertex_weights.dfy ===
/** The vertex weight resolver (`loadVerticesWeights`): distribute the raw
    (vertex, bone, weight) triples to per-vertex lists, keep at most four
    influences per vertex (the heaviest ones), and divide every kept weight by
    the vertex's total. Weights are reals: the float rounding of the source
    is not modelled. */
module VertexWeights {
  import opened Common
  import opened BoneWeights

  /** The most influences a vertex keeps. */
  const MaxWeights: nat := 4

  /** One raw triple after the `(int)` casts of its vertex and bone fields. */
  datatype Triple = Triple(vertex: int, bone: int, weight: real)

  /** A normalised weight: `w / total` for a nonzero total; the float
      division by a zero total (NaN or an infinity) is kept as its numerator. */
  datatype Ratio = Finite(value: real) | NonFinite(numerator: real)

  /** A kept influence after normalisation. */
  datatype Influence = Influence(bone: int, weight: Ratio)

  /** The complete triples of the flat float array, in array order; trailing
      floats that do not fill a triple are ignored. */
  function Triples(verticesWeights: seq<real>): (ts: seq<Triple>)
    ensures |ts| == |verticesWeights| / 3
  {
    seq(|verticesWeights| / 3, i requires 0 <= i < |verticesWeights| / 3 =>
      Triple(Truncate(verticesWeights[3 * i]), Truncate(verticesWeights[3 * i + 1]), verticesWeights[3 * i + 2]))
  }

  /** The flat float layout the triples are read from: vertex, bone and
      weight of each triple, in order. */
  function Flatten(ts: seq<Triple>): (fs: seq<real>)
    ensures |fs| == 3 * |ts|
  {
    if ts == [] then []
    else
      var t := ts[|ts| - 1];
      Flatten(ts[..|ts| - 1]) + [t.vertex as real, t.bone as real, t.weight]
  }

  /** The three floats of triple `i` sit at `3 * i`, `3 * i + 1` and `3 * i + 2`. */
  lemma {:induction false} FlattenAt(ts: seq<Triple>, i: nat)
    requires i < |ts|
    ensures Flatten(ts)[3 * i] == ts[i].vertex as real
    ensures Flatten(ts)[3 * i + 1] == ts[i].bone as real
    ensures Flatten(ts)[3 * i + 2] == ts[i].weight
  {
    var init := ts[..|ts| - 1];
    if i < |init| {
      FlattenAt(init, i);
    }
  }

  /** Reading back a flattened triple list gives the triples again, whatever
      fewer-than-three floats trail it: the casts are exact on whole numbers
      and the incomplete tail is ignored. */
  lemma TriplesFlattenRoundTrip(ts: seq<Triple>, tail: seq<real>)
    requires |tail| < 3
    ensures Triples(Flatten(ts) + tail) == ts
  {
    var fs := Flatten(ts) + tail;
    assert |fs| / 3 == |ts|;
    forall i | 0 <= i < |ts|
      ensures Triples(fs)[i] == ts[i]
    {
      FlattenAt(ts, i);
      WholeTruncates(ts[i].vertex);
      WholeTruncates(ts[i].bone);
    }
  }

  /** A float array whose vertex and bone fields hold whole numbers and whose
      length is a multiple of three is the flat layout of its triples. */
  lemma FlattenTriplesRoundTrip(fs: seq<real>)
    requires |fs| % 3 == 0
    requires forall i :: 0 <= i < |fs| && i % 3 != 2 ==> fs[i] == fs[i].Floor as real
    ensures Flatten(Triples(fs)) == fs
  {
    var ts := Triples(fs);
    forall k | 0 <= k < |fs|
      ensures Flatten(ts)[k] == fs[k]
    {
      var i := k / 3;
      FlattenAt(ts, i);
      assert k == 3 * i || k == 3 * i + 1 || k == 3 * i + 2;
      WholeTruncates(fs[3 * i].Floor);
      WholeTruncates(fs[3 * i + 1].Floor);
    }
  }

  /** The `(int)` cast of a whole-number float is that number. */
  lemma WholeTruncates(n: int)
    ensures Truncate(n as real) == n
  {
  }

  /** The triple's bone and vertex both index their arrays. */
  predicate TripleValid(t: Triple, vertexCount: nat, boneCount: nat) {
    0 <= t.bone < boneCount && 0 <= t.vertex < vertexCount
  }

  /** Reference definition: the influences on vertex `v`, in triple order. */
  function InfluencesOf(ts: seq<Triple>, v: int): seq<BoneWeight>
  {
    if ts == [] then []
    else
      var t := ts[|ts| - 1];
      InfluencesOf(ts[..|ts| - 1], v) + (if t.vertex == v then [BoneWeight(t.bone, t.weight)] else [])
  }

  /** Appends every triple, in order, to the list of its vertex; fails on the
      first triple whose bone or vertex is out of range. */
  function Distribute(ts: seq<Triple>, vertexCount: nat, boneCount: nat): (r: Result<seq<seq<BoneWeight>>>)
    ensures r.Ok? <==> forall i :: 0 <= i < |ts| ==> TripleValid(ts[i], vertexCount, boneCount)
    ensures r.Err? ==> r.error == IndexOutOfRange
    ensures r.Ok? ==> |r.value| == vertexCount
    ensures r.Ok? ==> forall v :: 0 <= v < vertexCount ==> r.value[v] == InfluencesOf(ts, v)
    decreases |ts|
  {
    if ts == [] then Ok(seq(vertexCount, _ => []))
    else
      var lists :- Distribute(ts[..|ts| - 1], vertexCount, boneCount);
      var t := ts[|ts| - 1];
      if !(0 <= t.bone < boneCount) || !(0 <= t.vertex < vertexCount) then Err(IndexOutOfRange)
      else Ok(lists[t.vertex := lists[t.vertex] + [BoneWeight(t.bone, t.weight)]])
  }

  /** Keeps lists of at most four influences as they are; sorts longer ones
      largest-first and drops the tail beyond four. */
  function Prune(ws: seq<BoneWeight>): (r: seq<BoneWeight>)
    ensures |r| <= MaxWeights
    ensures |ws| <= MaxWeights ==> r == ws
    ensures |ws| > MaxWeights ==> |r| == MaxWeights && Descending(r)
    ensures multiset(r) <= multiset(ws)
    ensures Outweighs(r, multiset(ws) - multiset(r))
  {
    if |ws| > MaxWeights then
      var sorted := SortDescending(ws);
      SortDescendingSorts(ws);
      var kept := sorted[..MaxWeights];
      SplitMultiset(sorted, MaxWeights);
      HeadOutweighsTail(sorted, MaxWeights);
      kept
    else ws
  }

  /** When the influences of a vertex with more than four already come in
      strictly decreasing weight, pruning keeps the first four: the sort has
      nothing to reorder and only the tail is removed. */
  lemma PruneKeepsHeadOfOrderedList(ws: seq<BoneWeight>)
    requires |ws| > MaxWeights
    requires forall i, j :: 0 <= i < j < |ws| ==> ws[i].weight > ws[j].weight
    ensures Prune(ws) == ws[..MaxWeights]
  {
    SortKeepsDescending(ws);
  }

  /** Every kept influence weighs at least as much as every dropped one. */
  predicate Outweighs(kept: seq<BoneWeight>, dropped: multiset<BoneWeight>) {
    forall a, b :: a in kept && b in dropped ==> a.weight >= b.weight
  }

  lemma SplitMultiset(s: seq<BoneWeight>, n: nat)
    requires n <= |s|
    ensures multiset(s[..n]) <= multiset(s)
    ensures multiset(s) - multiset(s[..n]) == multiset(s[n..])
  {
    assert s == s[..n] + s[n..];
  }

  /** In a descending sequence every element of a prefix weighs at least as
      much as every element of the rest. */
  lemma HeadOutweighsTail(s: seq<BoneWeight>, n: nat)
    requires Descending(s) && n <= |s|
    ensures Outweighs(s[..n], multiset(s[n..]))
  {
    forall a, b | a in s[..n] && b in multiset(s[n..])
      ensures a.weight >= b.weight
    {
      var i :| 0 <= i < n && s[..n][i] == a;
      var j :| 0 <= j < |s| - n && s[n..][j] == b;
    }
  }

  /** The sum of the weights, as the source accumulates it. */
  function Total(ws: seq<BoneWeight>): real {
    if ws == [] then 0.0 else ws[0].weight + Total(ws[1..])
  }

  function Divide(w: real, total: real): Ratio {
    if total != 0.0 then Finite(w / total) else NonFinite(w)
  }

  /** Divides every weight by `total`, keeping bones and order. */
  function Scale(ws: seq<BoneWeight>, total: real): (r: seq<Influence>)
    ensures |r| == |ws|
    ensures forall i :: 0 <= i < |ws| ==> r[i] == Influence(ws[i].bone, Divide(ws[i].weight, total))
  {
    if ws == [] then [] else [Influence(ws[0].bone, Divide(ws[0].weight, total))] + Scale(ws[1..], total)
  }

  /** Divides every kept weight by their total. A zero total is not rejected. */
  function Normalize(ws: seq<BoneWeight>): (r: seq<Influence>)
    ensures |r| == |ws|
    ensures forall i :: 0 <= i < |ws| ==> r[i].bone == ws[i].bone
    ensures Total(ws) != 0.0 ==> forall i :: 0 <= i < |ws| ==>
      r[i].weight.Finite? && r[i].weight.value * Total(ws) == ws[i].weight
    ensures Total(ws) == 0.0 ==> forall i :: 0 <= i < |ws| ==> r[i].weight == NonFinite(ws[i].weight)
  {
    Scale(ws, Total(ws))
  }

  /** The sum of the finite normalised weights. */
  function FiniteTotal(rs: seq<Influence>): real {
    if rs == [] then 0.0
    else (if rs[0].weight.Finite? then rs[0].weight.value else 0.0) + FiniteTotal(rs[1..])
  }

  lemma {:induction false} ScaledTotal(ws: seq<BoneWeight>, total: real)
    requires total != 0.0
    ensures FiniteTotal(Scale(ws, total)) == Total(ws) / total
  {
    if ws != [] {
      ScaledTotal(ws[1..], total);
    }
  }

  /** Over reals, normalised weights with a nonzero total sum to one. */
  lemma NormalizedWeightsSumToOne(ws: seq<BoneWeight>)
    requires Total(ws) != 0.0
    ensures FiniteTotal(Normalize(ws)) == 1.0
  {
    var total := Total(ws);
    ScaledTotal(ws, total);
    assert total / total == 1.0;
  }

  lemma {:induction false} TotalBoundsNonNegative(ws: seq<BoneWeight>)
    requires forall i :: 0 <= i < |ws| ==> ws[i].weight >= 0.0
    ensures Total(ws) >= 0.0
    ensures forall i :: 0 <= i < |ws| ==> ws[i].weight <= Total(ws)
    ensures |ws| > 0 && (forall i :: 0 <= i < |ws| ==> ws[i].weight > 0.0) ==> Total(ws) > 0.0
  {
    if ws != [] {
      TotalBoundsNonNegative(ws[1..]);
      assert forall i :: 1 <= i < |ws| ==> ws[i] == ws[1..][i - 1];
    }
  }

  /** Non-negative weights with a nonzero total normalise into [0, 1]. */
  lemma NormalizedWeightsInUnitRange(ws: seq<BoneWeight>)
    requires forall i :: 0 <= i < |ws| ==> ws[i].weight >= 0.0
    requires Total(ws) != 0.0
    ensures forall i :: 0 <= i < |ws| ==>
      Normalize(ws)[i].weight.Finite? && 0.0 <= Normalize(ws)[i].weight.value <= 1.0
  {
    TotalBoundsNonNegative(ws);
    var total := Total(ws);
    forall i | 0 <= i < |ws|
      ensures 0.0 <= ws[i].weight / total <= 1.0
    {
      FractionInUnitRange(ws[i].weight, total);
    }
  }

  lemma FractionInUnitRange(w: real, total: real)
    requires 0.0 <= w <= total && total > 0.0
    ensures 0.0 <= w / total <= 1.0
  {
  }

  /** The per-vertex lists the loader hands to the vertex buffer. */
  function LoadVerticesWeights(verticesCoordinates: seq<real>, verticesWeights: seq<real>, boneCount: nat)
    : (r: Result<seq<seq<Influence>>>)
    ensures r.Ok? <==> forall t :: t in Triples(verticesWeights) ==>
      TripleValid(t, |verticesCoordinates| / 3, boneCount)
    ensures r.Err? ==> r.error == IndexOutOfRange
    ensures r.Ok? ==> |r.value| == |verticesCoordinates| / 3
    ensures r.Ok? ==> forall v :: 0 <= v < |r.value| ==>
      |r.value[v]| <= MaxWeights &&
      r.value[v] == Normalize(Prune(InfluencesOf(Triples(verticesWeights), v)))
  {
    var lists :- Distribute(Triples(verticesWeights), |verticesCoordinates| / 3, boneCount);
    Ok(seq(|lists|, v requires 0 <= v < |lists| => Normalize(Prune(lists[v]))))
  }

  /** A vertex's list is empty exactly when no triple names that vertex. */
  lemma {:induction false} NoTriplesNoInfluences(ts: seq<Triple>, v: int)
    ensures InfluencesOf(ts, v) == [] <==> forall i :: 0 <= i < |ts| ==> ts[i].vertex != v
  {
    if ts != [] {
      var init := ts[..|ts| - 1];
      NoTriplesNoInfluences(init, v);
      assert forall i :: 0 <= i < |init| ==> init[i] == ts[i];
    }
  }

  /** `b` is the bone and weight of some triple naming vertex `v`. */
  predicate FromTriple(ts: seq<Triple>, v: int, b: BoneWeight) {
    exists i :: 0 <= i < |ts| && ts[i].vertex == v && b == BoneWeight(ts[i].bone, ts[i].weight)
  }

  /** Every influence on a vertex is the bone and weight of a triple naming it. */
  lemma {:induction false} InfluencesComeFromTriples(ts: seq<Triple>, v: int)
    ensures forall k :: 0 <= k < |InfluencesOf(ts, v)| ==> FromTriple(ts, v, InfluencesOf(ts, v)[k])
  {
    if ts != [] {
      var init := ts[..|ts| - 1];
      var prev := InfluencesOf(init, v);
      var cur := InfluencesOf(ts, v);
      InfluencesComeFromTriples(init, v);
      forall k | 0 <= k < |cur|
        ensures FromTriple(ts, v, cur[k])
      {
        if k < |prev| {
          assert cur[k] == prev[k];
          var i :| 0 <= i < |init| && init[i].vertex == v && prev[k] == BoneWeight(init[i].bone, init[i].weight);
          assert ts[i] == init[i];
        } else {
          var last := |ts| - 1;
          assert ts[last].vertex == v;
          assert cur[k] == BoneWeight(ts[last].bone, ts[last].weight);
        }
      }
    }
  }

  /** The number of influences held by all the lists together. */
  function InfluenceCount(lists: seq<seq<BoneWeight>>): nat {
    if lists == [] then 0 else |lists[0]| + InfluenceCount(lists[1..])
  }

  lemma {:induction false} AppendCountsOnce(lists: seq<seq<BoneWeight>>, v: nat, b: BoneWeight)
    requires v < |lists|
    ensures InfluenceCount(lists[v := lists[v] + [b]]) == InfluenceCount(lists) + 1
  {
    if v > 0 {
      AppendCountsOnce(lists[1..], v - 1, b);
      assert lists[v := lists[v] + [b]][1..] == lists[1..][v - 1 := lists[v] + [b]];
    }
  }

  lemma {:induction false} EmptyListsCountZero(n: nat)
    ensures InfluenceCount(seq<seq<BoneWeight>>(n, _ => [])) == 0
  {
    if n > 0 {
      EmptyListsCountZero(n - 1);
      assert seq<seq<BoneWeight>>(n, _ => [])[1..] == seq<seq<BoneWeight>>(n - 1, _ => []);
    }
  }

  /** Distribution neither loses nor duplicates a triple: the lists hold
      exactly one influence per triple. */
  lemma {:induction false} DistributionConservesTriples(ts: seq<Triple>, vertexCount: nat, boneCount: nat)
    requires Distribute(ts, vertexCount, boneCount).Ok?
    ensures InfluenceCount(Distribute(ts, vertexCount, boneCount).value) == |ts|
  {
    if ts == [] {
      EmptyListsCountZero(vertexCount);
    } else {
      var init := ts[..|ts| - 1];
      var t := ts[|ts| - 1];
      DistributionConservesTriples(init, vertexCount, boneCount);
      AppendCountsOnce(Distribute(init, vertexCount, boneCount).value, t.vertex, BoneWeight(t.bone, t.weight));
    }
  }

  /** With positive raw weights, every vertex that has an influence ends up
      with normalised weights in [0, 1] summing to one. */
  lemma VertexWeightsSumToOne(verticesCoordinates: seq<real>, verticesWeights: seq<real>, boneCount: nat, v: nat)
    requires LoadVerticesWeights(verticesCoordinates, verticesWeights, boneCount).Ok?
    requires forall i :: 0 <= i < |verticesWeights| / 3 ==> verticesWeights[3 * i + 2] > 0.0
    requires v < |verticesCoordinates| / 3
    requires LoadVerticesWeights(verticesCoordinates, verticesWeights, boneCount).value[v] != []
    ensures FiniteTotal(LoadVerticesWeights(verticesCoordinates, verticesWeights, boneCount).value[v]) == 1.0
    ensures forall k :: 0 <= k < |LoadVerticesWeights(verticesCoordinates, verticesWeights, boneCount).value[v]| ==>
      var w := LoadVerticesWeights(verticesCoordinates, verticesWeights, boneCount).value[v][k].weight;
      w.Finite? && 0.0 <= w.value <= 1.0
  {
    var ts := Triples(verticesWeights);
    var raw := InfluencesOf(ts, v);
    var kept := Prune(raw);
    InfluencesComeFromTriples(ts, v);
    assert forall k :: 0 <= k < |kept| ==> kept[k].weight > 0.0 by {
      forall k | 0 <= k < |kept|
        ensures kept[k].weight > 0.0
      {
        assert kept[k] in multiset(kept);
        assert kept[k] in raw;
        var j :| 0 <= j < |raw| && raw[j] == kept[k];
        var i :| 0 <= i < |ts| && ts[i].vertex == v && raw[j] == BoneWeight(ts[i].bone, ts[i].weight);
        assert ts[i].weight == verticesWeights[3 * i + 2];
      }
    }
    TotalBoundsNonNegative(kept);
    NormalizedWeightsSumToOne(kept);
    NormalizedWeightsInUnitRange(kept);
  }

  /** Five influences 0.1, 0.5, 0.2, 0.15, 0.05 on bones 0..4: the four
      heaviest are kept, heaviest first, and renormalised over 0.95. */
  lemma FiveInfluencesExample()
    ensures Normalize(Prune([BoneWeight(0, 0.1), BoneWeight(1, 0.5), BoneWeight(2, 0.2),
                             BoneWeight(3, 0.15), BoneWeight(4, 0.05)]))
      == [Influence(1, Finite(0.5 / 0.95)), Influence(2, Finite(0.2 / 0.95)),
          Influence(3, Finite(0.15 / 0.95)), Influence(0, Finite(0.1 / 0.95))]
  {
    PruneFiveExample();
    NormalizeFourExample([BoneWeight(1, 0.5), BoneWeight(2, 0.2), BoneWeight(3, 0.15), BoneWeight(0, 0.1)]);
  }

  lemma NormalizeFourExample(kept: seq<BoneWeight>)
    requires kept == [BoneWeight(1, 0.5), BoneWeight(2, 0.2), BoneWeight(3, 0.15), BoneWeight(0, 0.1)]
    ensures Normalize(kept) == [Influence(1, Finite(0.5 / 0.95)), Influence(2, Finite(0.2 / 0.95)),
                                Influence(3, Finite(0.15 / 0.95)), Influence(0, Finite(0.1 / 0.95))]
  {
    TotalFourExample();
  }

  lemma TotalFourExample()
    ensures Total([BoneWeight(1, 0.5), BoneWeight(2, 0.2), BoneWeight(3, 0.15), BoneWeight(0, 0.1)]) == 0.95
  {
  }

  lemma PruneFiveExample()
    ensures Prune([BoneWeight(0, 0.1), BoneWeight(1, 0.5), BoneWeight(2, 0.2), BoneWeight(3, 0.15), BoneWeight(4, 0.05)])
      == [BoneWeight(1, 0.5), BoneWeight(2, 0.2), BoneWeight(3, 0.15), BoneWeight(0, 0.1)]
  {
    var ws := [BoneWeight(0, 0.1), BoneWeight(1, 0.5), BoneWeight(2, 0.2), BoneWeight(3, 0.15), BoneWeight(4, 0.05)];
    var kept := [BoneWeight(1, 0.5), BoneWeight(2, 0.2), BoneWeight(3, 0.15), BoneWeight(0, 0.1)];
    assert SortDescending(ws) == kept + [BoneWeight(4, 0.05)];
    assert (kept + [BoneWeight(4, 0.05)])[..MaxWeights] == kept;
  }
}
